=== FILE: README.md ===
# fav_idol core, modelled in Dafny

fav_idol is the backend of an idol-fandom schedule service. Users register (by email or
through Naver/Kakao social login), subscribe to idol groups, and read a feed of those
groups' schedules. Administrators maintain a catalogue of agencies, groups and idols.

This project models the decision rules and table updates at the core of that backend:

- the subscription table and its service (`SubscriptionService`), and the views on top
  of it, including the subscribed-schedules feed (`PreferenceViews`);
- the user registry: `create_user` / `create_superuser` (`AccountModels`); the account
  services, meaning authentication outcome, social login, uniqueness checks, look-ups,
  profile update, activation and passwords (`AccountServices`); and the login serializer
  (`LoginValidation`);
- the schedule serializer: time-window validation, creation and member names
  (`ScheduleSerializer`);
- the catalogue: colour validation, display labels, cascading deletes (`IdolModels`), and
  the duplicate-name checks and representations (`IdolSerializers`);
- the permission classes (`ConfigPermissions`, `SchedulePermissions`);
- the API exception classes and the error-envelope handler (`ApiExceptions`).

Database tables are sequences of row datatypes, kept in table order. Tables that the
source updates in place live in classes (`SubscriptionTable`, `UserRegistry`,
`ScheduleStore`) whose methods are proved against specification functions on the old
state (`Upserted`, `Deleted`, `Creation`, `SocialLogin`, `Activated`, ...). The
properties are proved as lemmas about those functions.

Some calls into libraries become parameters:
- `normalize_email` is a function fixed when the registry is built;
- the framework's `authenticate` and the JWT issuer are function parameters;
- the OAuth settings are a record;
- the framework's own exception handler is represented by the response it produced.

Password hashing is abstract: a credential records which raw password was set, or that it
is unusable. Datetimes are integers.

Where the ORM's `get` may find several rows, the model says what happens. For emails,
where the column is unique, it is proved impossible. For name and phone, several rows
make the call raise. The subscription table has no uniqueness constraint in the
database. "At most one row per (user, group)" is an invariant that the service's own
operations are proved to keep (`SubscriptionTable.Valid`).

## Model

| member | source | states |
|---|---|---|
| SubscriptionService.FindPair | Preferences/services.py:27 | the looked-up row is the first row of the (user, group) pair; there is none exactly when the pair has no row |
| SubscriptionService.Without | Preferences/services.py:24-31 | reference definition of unsubscribing: a row is kept iff it is not of the pair |
| SubscriptionService.OfUser | Preferences/services.py:36 | `filter(user=user)`: a row is returned iff it belongs to the user, never more rows than the table |
| SubscriptionService.OfUserCounts | Preferences/services.py:36 | `filter(user=user)` returns each of the user's rows exactly as often as the table holds it, and never more of any row than the table holds |
| SubscriptionService.Upserted | Preferences/services.py:17-19 | after `update_or_create` the pair has a row; the table grows by one row iff the pair had none, else keeps its length |
| SubscriptionService.Deleted | Preferences/services.py:27-28 | get-and-delete removes one row iff the pair had a row, else none, and adds no row |
| SubscriptionService.UpsertedPlacesOneRow | Preferences/services.py:17-19 | after `update_or_create` some row holds the pair with the requested flag, at most one row per pair and distinct ids still hold, and no row of another pair appears or disappears |
| SubscriptionService.UpsertIdempotent | Preferences/services.py:17-19 | subscribing twice with the same arguments leaves the table as the first call left it |
| SubscriptionService.ResubscribeChangesOnlyFlag | Preferences/services.py:17-19 | re-subscribing an existing pair keeps the table length, changes that row's notification flag only, and leaves every other row identical |
| SubscriptionService.DeletedIsWithout | Preferences/services.py:27-28 | under the one-row-per-pair invariant, get-and-delete equals filtering the pair out |
| SubscriptionService.WithoutAbsent | Preferences/services.py:30-31 | removing a pair that has no row changes nothing |
| SubscriptionService.WithoutUpserted | Preferences/services.py:17-28 | the rows of other pairs after an upsert are those before it |
| SubscriptionService.SubscribeThenUnsubscribe | Preferences/services.py:17-31 | subscribe then unsubscribe leaves no row for the pair and every other row as before |
| SubscriptionService.SubscriptionTable.Subscribe | Preferences/services.py:10-21 | an unknown group raises "존재하지 않는 그룹입니다." and leaves the table unchanged; otherwise the table becomes the upsert of the old table and the returned row holds the pair and the flag (default true); the invariant is kept |
| SubscriptionService.SubscriptionTable.Unsubscribe | Preferences/services.py:24-31 | answers true exactly when the pair had a row; the row is deleted, nothing changes on false, and no row of the pair remains |
| SubscriptionService.SubscriptionTable.UserSubscriptions | Preferences/services.py:34-36 | exactly the rows whose user is the given user, each exactly as often as the table holds it |
| PreferenceViews.SerializerFor | Preferences/views.py:23-27 | the response serializer iff the action is "list", the subscribe serializer for every other action |
| PreferenceViews.CustomResponse | Preferences/views.py:29-33 | status kept; no body iff no data; otherwise the body is `{"data": data}` |
| PreferenceViews.DestroyStatus | Preferences/views.py:63-65 | 204 iff the unsubscribe succeeded, 404 iff it did not |
| PreferenceViews.ViewsOf | Preferences/views.py:37-38 | one response-serializer view per row, in row order |
| PreferenceViews.ListResponse | Preferences/views.py:35-39 | status 200; the body is the views of the user's subscriptions in table order, one view per subscription: each of the user's rows appears exactly as often as in the table, every view is of a row of the user, and every row of the user has its view |
| PreferenceViews.Create | Preferences/views.py:41-55 | an unknown group is refused with the table unchanged; otherwise the table is upserted with notification defaulting to true when omitted, and the answer is 201 with the view of the stored row of the pair, which holds that flag |
| PreferenceViews.Destroy | Preferences/views.py:57-65 | the table becomes the delete of the pair; no body; 204 when the pair had a row, else 404 |
| PreferenceViews.SubscribedGroups | Preferences/views.py:76-78 | the group ids of the user's subscriptions, whatever their notification flag |
| PreferenceViews.InGroups | Preferences/views.py:81-82 | `group_id__in`: a schedule is kept iff its group is among the ids, each kept schedule exactly as often as in the table |
| PreferenceViews.InsertByStart | Preferences/views.py:83 | inserting into a list sorted by start time keeps it sorted and adds exactly that schedule (as a multiset) |
| PreferenceViews.SortByStart | Preferences/views.py:83 | `order_by('start_time')`: ascending start time and a permutation of the input |
| PreferenceViews.Feed | Preferences/views.py:74-83 | the feed is sorted by start time and holds no schedule more often than the table does |
| PreferenceViews.FeedSpec | Preferences/views.py:74-83 | the feed is sorted by start time, is a permutation of the filtered schedules, and holds each schedule of a subscribed group exactly as often as the table does, and no other |
| PreferenceViews.MutedSubscriptionStillFeeds | Preferences/views.py:76-78 | a subscription with notifications off still puts its group's schedules in the feed |
| AccountModels.SetPassword | Accounts/models.py:23 | `set_password(None)` gives an unusable password; a string password is stored as that password |
| AccountModels.CheckPassword | Accounts/services.py:255 | an unusable password never checks |
| AccountModels.SetThenCheck | Accounts/services.py:255 | a password set with `set_password` checks exactly against that raw password; an unusable one against none |
| AccountModels.Unsaved | Accounts/models.py:14-23 | the unsaved instance holds the given id, normalised email, username and name; a social user's password is unusable, any other user's is the one set |
| AccountModels.Creation | Accounts/models.py:6-25 | empty email, then empty username, then empty name raise, in that order; with all three given it succeeds iff the unsaved instance clashes with no row, and then returns that instance (next id, normalised email, given username and name); otherwise it raises an integrity error |
| AccountModels.CreationSucceedsExactly | Accounts/models.py:6-24 | with the required fields given, `create_user` succeeds exactly when no row holds the normalised email, the username, or the given phone |
| AccountModels.CreationKeepsConsistent | Accounts/models.py:24 | inserting the created user keeps ids and unique columns distinct and every reference valid |
| AccountModels.PlainUserDefaults | Accounts/models.py:38-49 | a plain `create_user` gives a user that is not admin, staff, superuser, active or social, has no provider and no phone, and holds the given password |
| AccountModels.ExtraFieldsStored | Accounts/models.py:14-23 | extra fields are stored as given; a social user gets an unusable password, any other user the given one |
| AccountModels.DuplicateRejected | Accounts/models.py:40-43 | creating a user whose normalised email or whose username is already held fails with an integrity error |
| AccountModels.SecondCreationFails | Accounts/models.py:40-43 | repeating a successful creation with the same arguments fails |
| AccountModels.SuperuserExtras | Accounts/models.py:28-31 | `setdefault`: superuser, admin, staff and active become true unless passed, passed values are kept, other fields untouched |
| AccountModels.SuperuserDefaults | Accounts/models.py:27-33 | a superuser created without extra fields is superuser, admin, staff and active |
| AccountModels.Label | Accounts/models.py:56-57 | `str(user)` is the user's email |
| AccountModels.UserRegistry.CreateUser | Accounts/models.py:6-25 | the answer is `Creation` on the old tables; the row is inserted exactly when it succeeds; consistency is kept |
| AccountModels.UserRegistry.CreateSuperuser | Accounts/models.py:27-33 | `create_user` with the superuser defaults applied to the extra fields |
| AccountServices.Get | Accounts/services.py:200 | the ORM's `get`: DoesNotExist iff no row satisfies the condition; a row iff exactly one position of the table satisfies it (no other does); MultipleObjectsReturned iff two different positions do; a found row satisfies it |
| AccountServices.AuthenticateUser | Accounts/services.py:18-24 | no user gives the bad-credentials message; an inactive user gives the verification message; otherwise the user and no message |
| AccountServices.GetAdapterConfig | Accounts/services.py:46-61 | a configuration iff the provider is "naver" or "kakao", each with its own adapter and settings |
| AccountServices.FindAccount | Accounts/services.py:104-106 | the social account of (provider, uid), none iff there is no such account |
| AccountServices.FindUser | Accounts/services.py:110 | the index of the first row satisfying the condition (no earlier row does), none iff there is none |
| AccountServices.GetOrCreateAddress | Accounts/services.py:137-139 | `get_or_create`: the address is present afterwards and no row is lost or added besides it |
| AccountServices.SocialLoginExistingAccount | Accounts/services.py:104-107 | branch 1: an existing (provider, uid) account returns its own user and changes no table |
| AccountServices.SocialLoginLinksByEmail | Accounts/services.py:109-119 | branch 2: the user holding the email is marked social for this provider and gets one new social account; nothing else changes |
| AccountServices.SocialLoginCreates | Accounts/services.py:120-139 | branch 3 succeeds exactly when the email has a local part and no row holds the normalised email or the username "{provider}_{local part}"; it then creates a new active social user with that username, the local part as name and an unusable password, plus its social account and a verified primary address |
| AccountServices.SocialLoginNeedsLocalPart | Accounts/services.py:121-130 | an email with an empty local part makes branch 3 fail on the required fields, writing nothing |
| AccountServices.SocialLogin | Accounts/services.py:101-140 | a failed social login changes no table; a successful one returns a user that is in the users table afterwards |
| AccountServices.SocialLoginKeepsConsistent | Accounts/services.py:101-140 | every branch keeps the account tables consistent (unique users, unique (provider, uid), valid references) |
| AccountServices.SocialLoginIdempotent | Accounts/services.py:101-140 | repeating a successful social login returns the same user and changes nothing |
| AccountServices.FindUserByEmail | Accounts/services.py:198-202 | the user with that email and no message, or no user and the not-found message exactly when no row has the email |
| AccountServices.AtMostOneMatch | Accounts/services.py:200 | a filter on a unique column yields at most one row, so `get` never finds several |
| AccountServices.FindUserByNameAndPhone | Accounts/services.py:205-210 | the matching user iff exactly one row has that name and phone and no other does; the no-match message iff none has; raises iff two different rows have them |
| AccountServices.NameAndPhoneRaisesOnlyWithoutPhone | Accounts/services.py:207 | with a phone given the look-up never raises, since phones are unique |
| AccountServices.CheckEmailUniqueness | Accounts/services.py:228-231 | "taken" with its message iff some user already has the email |
| AccountServices.CheckUsernameUniqueness | Accounts/services.py:234-240 | "taken" iff another row has the username, where a non-zero `user_id` excludes that user's own row |
| AccountServices.CheckPhoneUniqueness | Accounts/services.py:243-251 | an empty or missing phone is available without a query; otherwise "taken" iff another row has the phone, excluding the caller's own row |
| AccountServices.OwnValuesAvailable | Accounts/services.py:234-251 | a user re-submitting its own username or phone with its own id never conflicts |
| AccountServices.VerifyCurrentPassword | Accounts/services.py:254-257 | true and no message iff the password matches, else false and the mismatch message |
| AccountServices.ProfileEdit | Accounts/services.py:260-264 | username and phone are replaced only by non-empty values; every other field is unchanged |
| AccountServices.ProfileUpdate | Accounts/services.py:260-266 | the stored row is the requested edit (`ProfileEdit` of the old row); a unique-column clash of that edit fails with an integrity error and writes nothing, and only then; otherwise the edit replaces the old row, all other tables unchanged |
| AccountServices.ProfileUpdateSucceedsExactly | Accounts/services.py:260-266 | the update is saved exactly when no other row holds the resulting username, nor the resulting phone when there is one |
| AccountServices.ProfileUpdateOnlyTouchesProfile | Accounts/services.py:260-266 | a profile update touches only the edited row's username and phone; with neither given it changes nothing |
| AccountServices.ProfileUpdateKeepsConsistent | Accounts/services.py:265 | a profile update keeps the tables consistent, whether it is saved or refused on a unique-column clash |
| AccountServices.MarkVerified | Accounts/services.py:222-224 | address rows of that user and email become verified and primary, all others unchanged |
| AccountServices.Activated | Accounts/services.py:219-225 | the user becomes active, its address rows for its own email become verified and primary, nothing else changes |
| AccountServices.ActivationKeepsConsistent | Accounts/services.py:219-225 | activation keeps the tables consistent |
| AccountServices.PasswordChanged | Accounts/services.py:213-215 | only the user's credential changes, and the new password then checks |
| AccountServices.PasswordChangeKeepsConsistent | Accounts/services.py:269-271 | a password change keeps the tables consistent |
| AccountServices.GetOrCreateSocialUser | Accounts/services.py:101-140 | the answer and the new tables are exactly `SocialLogin` of the old tables; consistency is kept |
| AccountServices.UpdateUserProfile | Accounts/services.py:260-266 | the answer and the new tables are `ProfileUpdate` of the old tables |
| AccountServices.ActivateUser | Accounts/services.py:219-225 | the new tables are `Activated` of the old ones; the returned user is active |
| AccountServices.ResetPassword | Accounts/services.py:213-216 | the new tables are `PasswordChanged`; answers true |
| AccountServices.UpdatePassword | Accounts/services.py:269-272 | the new tables are `PasswordChanged`; returns the updated user |
| LoginValidation.Validate | Accounts/serializers.py:12-36 | missing or empty email or password, then no authenticated user, then an inactive user, each fail with their message in that order; otherwise the user, both tokens and a lifetime of 86400 |
| LoginValidation.MissingFieldsNeverAuthenticate | Accounts/serializers.py:16-36 | with a field missing the answer does not depend on the authenticator or the token issuer |
| LoginValidation.AgreesWithAuthService | Accounts/serializers.py:16-25 | the serializer succeeds exactly when `authenticate_user` accepts the user, and fails with the same message otherwise |
| ScheduleSerializer.Validate | Schedules/serializer.py:47-51 | accepted iff the end is strictly after the start, and then returned unchanged; otherwise the ordering message |
| ScheduleSerializer.Distinct | Schedules/serializer.py:38-40 | the member relation after `set`: each given id exactly once, no other |
| ScheduleSerializer.DistinctOfDistinct | Schedules/serializer.py:38-40 | an id list without repeats is kept unchanged by `set` |
| ScheduleSerializer.MemberNames | Schedules/serializer.py:43-45 | one name per member, in member order |
| ScheduleSerializer.Minimal | Schedules/serializer.py:54-61 | exactly `schedule_id` = id and `group_id` = the group's id |
| ScheduleSerializer.ScheduleStore.Create | Schedules/serializer.py:29-41 | without a request user it raises "User context is missing." and inserts nothing; otherwise it appends one schedule built from the data for the requesting user |
| ScheduleSerializer.PostAsWritten | Schedules/views.py:22-30 | as written: the list view builds the serializer without the request in its context, so every create is refused with "User context is missing." and nothing is stored |
| ScheduleSerializer.Post | Schedules/views.py:22-30 | as intended: with the request in the context the schedule built from the data is stored for the requesting user |
| ScheduleSerializer.NewSchedule | Schedules/serializer.py:35-40 | the new row has the given id, the requester as owner, the data's group, title, description, location and times, and members that are exactly the given ids without repeats (none when absent) |
| ScheduleSerializer.NewScheduleKeepsMemberList | Schedules/serializer.py:35-40 | a submitted member list without repeats is stored as that exact list, in its order |
| IdolModels.ColorAcceptedExactly | Idols/models.py:22-31 | a colour passes validation iff it is null, blank, or '#' followed by exactly six hex digits |
| IdolModels.PatternMatches | Idols/models.py:25-27 | a value the pattern matches starts with '#' and is 7 long, or 8 with the trailing newline |
| IdolModels.ColorAccepted | Idols/models.py:22-31 | an accepted non-blank colour is exactly 7 long |
| IdolModels.TrailingNewlineOnlyStoppedByLength | Idols/models.py:23-27 | at the model field's validators, every valid colour followed by a newline passes the pattern and is refused only by the length limit of 7 |
| IdolModels.AgencyLabel | Idols/models.py:12-13 | `str(agency)` is its name |
| IdolModels.GroupLabel | Idols/models.py:35-36 | `str(group)` is the group name, then " (", then the agency's name, then ")" |
| IdolModels.IdolLabel | Idols/models.py:44-45 | `str(idol)` is the idol name, then " (", then the group's name, then ")" |
| IdolModels.GroupLabelDeterminesName | Idols/models.py:35-36 | within one agency, equal labels mean equal group names |
| IdolModels.IdolLabelDeterminesName | Idols/models.py:44-45 | within one group, equal labels mean equal idol names |
| IdolModels.DeleteAgencyRemovesDependents | Idols/models.py:16-45 | deleting an agency keeps exactly the other agencies, the groups of other agencies, and the idols whose group survives |
| IdolModels.DeleteAgencyKeepsWellFormed | Idols/models.py:16-45 | after deleting an agency every reference is still valid, and no group refers to it |
| IdolModels.DeleteAgency | Idols/models.py:21 | only existing rows remain; no remaining agency has the id and no remaining group belongs to it |
| IdolModels.DeleteGroupRemovesDependents | Idols/models.py:40 | deleting a group keeps every agency, the other groups, and exactly the idols of other groups |
| IdolModels.DeleteGroupKeepsWellFormed | Idols/models.py:40 | after deleting a group every reference is still valid, and no idol refers to it |
| IdolModels.DeleteGroup | Idols/models.py:40 | agencies unchanged; only existing rows remain; no remaining group has the id and no remaining idol belongs to it |
| IdolSerializers.RejectTaken | Idols/serializers.py:14-16 | the value is returned unchanged iff no row holds it, else the given message |
| IdolSerializers.ValidateAgencyName | Idols/serializers.py:13-16 | rejected with the agency message iff some agency has the name, otherwise returned unchanged |
| IdolSerializers.ValidateGroupName | Idols/serializers.py:37-40 | rejected with the group message iff some group has the name, otherwise returned unchanged |
| IdolSerializers.ValidateIdolName | Idols/serializers.py:54-57 | rejected with the idol message iff some idol has the name, otherwise returned unchanged |
| IdolSerializers.OwnNameRejectedOnUpdate | Idols/serializers.py:13-57 | the checks do not exclude the edited row, so re-submitting its own name is rejected |
| IdolSerializers.AcceptedGroupNameKeepsNamesUnique | Idols/models.py:17 | inserting a group whose name passed the check keeps group names unique and the catalogue well formed |
| IdolSerializers.AgencyRepresentation | Idols/serializers.py:7-10 | exactly id, name and contact |
| IdolSerializers.GroupRepresentation | Idols/serializers.py:21-34 | the group's own fields plus `agency_name` = its agency's name |
| IdolSerializers.IdolRepresentation | Idols/serializers.py:45-51 | the idol's own fields plus `group_name` = its group's name |
| IdolSerializers.GroupRepresentationUnique | Idols/serializers.py:21-23 | in a well-formed catalogue `agency_name` does not depend on which row is read for the agency id |
| ConfigPermissions.AdminOrReadOnlyAsWritten | config/permissions.py:9-12 | as written: safe methods allowed; for other methods an anonymous requester raises, an authenticated one is allowed iff admin |
| ConfigPermissions.AnonymousWriteCrashes | config/permissions.py:12 | POST or DELETE by the anonymous user raises instead of being refused |
| ConfigPermissions.AdminOrReadOnly | config/permissions.py:9-12 | as intended: allowed iff the method is GET, HEAD or OPTIONS, or the requester is an authenticated admin |
| ConfigPermissions.CorrectedAgreesWhereDefined | config/permissions.py:9-12 | wherever the written check does not raise, both checks give the same answer; where it raises the requester is anonymous and is refused |
| ConfigPermissions.OnlyAdminFlagGrantsWrites | config/permissions.py:12 | `is_staff` and `is_superuser` do not change the answer; an admin is allowed every method |
| ConfigPermissions.IsSuperUser | config/permissions.py:20-21 | allowed iff the requester is an authenticated superuser, whatever the method |
| ConfigPermissions.DefaultSuperuserPasses | config/permissions.py:9-21 | a superuser created with the manager's defaults passes both checks for every method |
| SchedulePermissions.AdminOrReadOnly | Schedules/permissions.py:9-12 | allowed iff the method is GET or the requester is authenticated staff |
| SchedulePermissions.HeadAndOptionsNeedStaff | Schedules/permissions.py:10-12 | HEAD and OPTIONS are not reads: anonymous and non-staff requesters are refused |
| SchedulePermissions.DiffersFromCatalogueCheck | Schedules/permissions.py:12 | an admin who is not staff cannot write schedules but can write the catalogue, and a staff member who is not admin the reverse |
| SchedulePermissions.AnonymousOnlyReads | Schedules/permissions.py:9-12 | the anonymous user is allowed exactly GET |
| ApiExceptions.DefaultStatus | config/base_exception.py:18-61 | class status codes lie between 400 and 599; exactly the base class and the subscription conflict use 400 |
| ApiExceptions.DefaultCode | config/base_exception.py:18-61 | every class has a non-empty default code, and only the base class has "error" |
| ApiExceptions.DefaultDetail | config/base_exception.py:18-61 | every class has a non-empty default message |
| ApiExceptions.ClassAttributes | config/base_exception.py:18-61 | status and code class by class: base 400 "error", not found 404 "not_found", unauthorized 401 "unauthorized", forbidden 403 "forbidden", service unavailable 503 "service_unavailable", subscription conflict 400 "subscription_conflict" |
| ApiExceptions.DefaultCodesDistinct | config/base_exception.py:18-61 | the six classes have six different default codes |
| ApiExceptions.CustomApiException.constructor | config/base_exception.py:25-32 | detail, status code and code are overridden only by arguments that are given; otherwise the class defaults apply |
| ApiExceptions.CustomApiException.AsRaised | config/base_exception.py:11-12 | the handler sees the instance's code and detail |
| ApiExceptions.Envelope | config/base_exception.py:10-14 | the body is exactly error code (the exception's `default_code`, or "error" without one), error message = the detail, and status code = the response status |
| ApiExceptions.CustomExceptionHandler | config/base_exception.py:6-16 | returns the framework's response; a null response stays null; otherwise only its body changes, to the envelope |
| ApiExceptions.DefaultExceptionReported | config/base_exception.py:18-61 | an exception constructed without arguments and handled is reported with its class's code and message and the response status; only the base class reports "error" |

## Left out

- Email sending (verification and password-reset mails, the notification task) is I/O through the mail transport. So are `verify_token` and the token generator.
- The notification fan-out in `Preferences/notification_service.py` is thread-pool concurrency and is not modelled.
- The OAuth code exchange (`get_access_token`, `get_user_info`) is network calls through the provider adapters.
- `generate_tokens` and `blacklist_token` are left out because JWT issuing and blacklisting are opaque library cryptography. The login serializer takes the token issuer as a parameter.
- Password hashing is not modelled: a credential records the raw password that was set, and `check_password` compares against it.
- `normalize_email` is a parameter. Email format is not checked, because `create_user` checks only emptiness.
- `delete_user_account` is left out. Its cascade reaches groups, schedules and subscriptions, which sit in other modules' tables. For the same reason the catalogue's cascade along `Group.manager` (deleting a user) is not modelled.
- The framework CRUD views and routes, the admin classes, settings, migrations, Swagger schemas, the Celery bootstraps and the S3 upload wrapper are left out. The views only route serializer results to responses; the rest is configuration and generated code.
- `UserScheduleDetailView` is left out: it is a plain `get_object_or_404` plus serialization.
- PreferenceViews.SortByStart: the database's order between schedules with equal start times is unspecified. The model keeps table order for ties, and the proved contract (sorted, and a permutation of the input) does not depend on it.
- ScheduleSerializer.MemberNames: `participating_members.all()` has no ordering. The model lists members in order of first appearance in the submitted ids.
- ScheduleSerializer.Validate is modelled only with both times present and non-null. Any request without both times (`end_time` is nullable, so the field is optional even on create), or with a null `end_time`, raises at Schedules/serializer.py:49 (a missing key, or comparing `None` with a datetime); that crash is not modelled.
- Maximum field lengths are modelled only where they decide an outcome (the colour) or as a catalogue invariant.
- Creation: the user columns' maximum lengths (username 15, name 20, email 50, phone 15) are not modelled. `create_user` saves without field validation, so an over-long value fails or is truncated by the database, which the model does not say.
- SocialLogin: the generated username "{provider}_{local part}" exceeds the 15-character username column once the local part is longer than 9 characters (both providers, "naver" and "kakao", are five letters); the model creates the user regardless.
- DeleteAgency: the cascade to the schedules (`Schedule.group`, Schedules/models.py:12) and the subscriptions (`UserGroupSubscribe.group`, Preferences/models.py:9) of the deleted groups is not modelled; those tables are outside the catalogue.
- DeleteGroup: the same cascade to the group's schedules and subscriptions is not modelled, for the same reason.
- AuthenticateUser: the authenticator is an unconstrained parameter. The "inactive user" outcome is reachable only with a backend that returns inactive users; the framework's default model backend returns none, so with it that branch never happens.
- LoginValidation.Validate: the same assumption about the authenticator as for AuthenticateUser.
- LoginValidation.Validate: the serializer's field checks, which run before `validate` (email and password required and non-blank, the email format, and the maximum lengths 50 and 128), are not modelled. Through `is_valid()` they leave the "enter both" branch unreachable; the model covers `validate` called on its own.
- A failed insert does not advance the id sequence in the model; the database's sequence may still move.
- ApiExceptions.Envelope takes the detail as a string. `str()` of list or dict details, and logging in the exception constructor, are not modelled.
- ApiExceptions.CustomExceptionHandler covers exceptions that carry a `detail` attribute. Framework exceptions without one (Django's `Http404` and `PermissionDenied`) are not modelled. Where the handler is installed, the framework's handler turns an `Http404` into a 404 response, but the `exc` that config/base_exception.py:12 reads is still the `Http404`, which has no `detail`. So every `get_object_or_404` miss would plausibly become a server error instead of a 404 (not executed). The settings that install the handler are not part of this model.

## Findings

| source | as written | input that shows it | evidently intended | confidence | as-written member | corrected member |
|---|---|---|---|---|---|---|
| config/permissions.py:12 | for an unsafe method the check reads `request.user.is_admin`, and the anonymous user has no such attribute | an unauthenticated POST or DELETE to a catalogue view: AttributeError, a server error, instead of a refusal (`ConfigPermissions.AnonymousWriteCrashes`); the corrected check agrees with it wherever it does not raise (`ConfigPermissions.CorrectedAgreesWhereDefined`) | refuse anonymous writes, as is done for `is_superuser` and `is_staff`, which the anonymous user does have | medium, not executed | ConfigPermissions.AdminOrReadOnlyAsWritten | ConfigPermissions.AdminOrReadOnly |
| Schedules/views.py:24 | the list view builds `ScheduleSerializer(data=request.data)` without `context={"request": request}`, and `create` refuses a context without a request (Schedules/serializer.py:32-33) | any POST to the schedule list view: the answer is the "User context is missing." validation error and nothing is stored (`ScheduleSerializer.PostAsWritten`) | pass the request in the serializer context so the schedule is stored for the requesting user | medium, not executed | ScheduleSerializer.PostAsWritten | ScheduleSerializer.Post |

=== FILE: accounts_models.dfy ===
/** The account tables: the custom `User` model, the allauth `SocialAccount` and
    `EmailAddress` rows that refer to it, and `UserManager.create_user` /
    `create_superuser`. Password hashing is abstracted: a credential records which raw
    password was set, or that the password is unusable. */
module AccountModels {
  import opened Common

  datatype Credential = Unusable | PasswordSet(secret: string)

  /** A row of the `user` table. `isSuperuser` comes from the permissions mixin. */
  datatype User = User(
    id: Id, email: string, username: string, name: string, credential: Credential,
    phone: Option<string>, isActive: bool, isAdmin: bool, isStaff: bool, isSuperuser: bool,
    isSocial: bool, socialLogin: Option<string>)

  /** The keyword arguments `create_user` passes through to the model (`**extra_fields`);
      `None` means the key is absent. */
  datatype ExtraFields = ExtraFields(
    isSuperuser: Option<bool>, isAdmin: Option<bool>, isStaff: Option<bool>, isActive: Option<bool>,
    isSocial: Option<bool>, socialLogin: Option<string>, phone: Option<string>)

  const NoExtras: ExtraFields := ExtraFields(None, None, None, None, None, None, None)

  datatype SocialAccount = SocialAccount(user: Id, provider: string, uid: string, extraData: string)
  datatype EmailAddress = EmailAddress(user: Id, email: string, verified: bool, primary: bool)

  /** A snapshot of the account tables; `nextId` is the next value of the user id sequence. */
  datatype Tables = Tables(users: seq<User>, accounts: seq<SocialAccount>, addresses: seq<EmailAddress>, nextId: Id)

  /** Why `create_user` raised: a missing required field (ValueError) or a unique column
      already holding the value (IntegrityError on insert). */
  datatype CreateError = EmailRequired | UsernameRequired | NameRequired | IntegrityError

  /** `set_password(raw)`: a `None` password gives an unusable one, as the framework's
      `make_password(None)` does. */
  function SetPassword(password: Option<string>): (c: Credential)
    ensures c.Unusable? <==> password.None?
    ensures password.Some? ==> c == PasswordSet(password.value)
  {
    if password.None? then Unusable else PasswordSet(password.value)
  }

  /** `check_password`: the raw password matches the one that was set. */
  predicate CheckPassword(c: Credential, raw: string)
    ensures c.Unusable? ==> !CheckPassword(c, raw)
  {
    c == PasswordSet(raw)
  }

  /** A password set with `set_password` is exactly the one `check_password` accepts; an
      unusable password accepts none. */
  lemma SetThenCheck(password: Option<string>, raw: string)
    ensures CheckPassword(SetPassword(password), raw) <==> password == Some(raw)
  {
  }

  /** The unsaved model instance `create_user` builds: the model's defaults (all flags
      false, no social provider, no phone) overridden by the extra fields, and a password
      that is unusable for a social user. */
  function Unsaved(id: Id, email: string, username: string, name: string, password: Option<string>, extras: ExtraFields): (u: User)
    ensures u.id == id && u.email == email && u.username == username && u.name == name
    ensures u.isSocial ==> u.credential == Unusable
    ensures !u.isSocial ==> u.credential == SetPassword(password)
  {
    User(id, email, username, name,
         if OrElse(extras.isSocial, false) then Unusable else SetPassword(password),
         extras.phone,
         OrElse(extras.isActive, false), OrElse(extras.isAdmin, false), OrElse(extras.isStaff, false),
         OrElse(extras.isSuperuser, false), OrElse(extras.isSocial, false), extras.socialLogin)
  }

  /** Two rows that the unique columns (email, username, non-null phone) cannot both hold. */
  predicate SameKey(a: User, b: User)
  {
    a.email == b.email || a.username == b.username || (a.phone.Some? && a.phone == b.phone)
  }

  /** Saving `u` violates a unique constraint against some other row. */
  predicate Clashes(users: seq<User>, u: User)
  {
    exists i :: 0 <= i < |users| && users[i].id != u.id && SameKey(users[i], u)
  }

  ghost predicate UniqueUsers(users: seq<User>)
  {
    forall i, j :: 0 <= i < j < |users| ==> users[i].id != users[j].id && !SameKey(users[i], users[j])
  }

  predicate UserExists(users: seq<User>, id: Id)
  {
    exists i :: 0 <= i < |users| && users[i].id == id
  }

  /** What the database guarantees of the account tables. */
  ghost predicate Consistent(t: Tables)
  {
    && 0 < t.nextId && UniqueUsers(t.users)
    && (forall k :: 0 <= k < |t.users| ==> 0 < t.users[k].id < t.nextId)
    && (forall a :: a in t.accounts ==> UserExists(t.users, a.user))
    && (forall i, j :: 0 <= i < j < |t.accounts| ==>
          !(t.accounts[i].provider == t.accounts[j].provider && t.accounts[i].uid == t.accounts[j].uid))
    && (forall e :: e in t.addresses ==> UserExists(t.users, e.user))
  }

  /** A row that keeps the id and the unique columns of row `i` clashes with no other row. */
  lemma SameKeysNoClash(users: seq<User>, i: nat, u: User)
    requires UniqueUsers(users) && i < |users|
    requires u.id == users[i].id && u.email == users[i].email && u.username == users[i].username
    requires u.phone == users[i].phone
    ensures !Clashes(users, u)
  {
    forall k | 0 <= k < |users| && users[k].id != u.id ensures !SameKey(users[k], u) {
      if k < i {
        assert !SameKey(users[k], users[i]);
      } else {
        assert !SameKey(users[i], users[k]);
      }
    }
  }

  /** Saving row `i` as `u` (same id, no unique column clashing) keeps the tables consistent,
      and every user id still has its row. */
  lemma ReplaceUserKeepsConsistent(t: Tables, i: nat, u: User)
    requires Consistent(t) && i < |t.users|
    requires u.id == t.users[i].id && !Clashes(t.users, u)
    ensures Consistent(t.(users := t.users[i := u]))
    ensures forall id :: UserExists(t.users, id) ==> UserExists(t.users[i := u], id)
  {
    var users := t.users[i := u];
    forall id | UserExists(t.users, id) ensures UserExists(users, id) {
      var k :| 0 <= k < |t.users| && t.users[k].id == id;
      assert users[k].id == id;
    }
    forall a, b | 0 <= a < b < |users|
      ensures users[a].id != users[b].id && !SameKey(users[a], users[b])
    {
      assert t.users[a].id != t.users[b].id && !SameKey(t.users[a], t.users[b]);
      if a == i {
        assert !(t.users[b].id != u.id && SameKey(t.users[b], u));
      } else if b == i {
        assert !(t.users[a].id != u.id && SameKey(t.users[a], u));
      }
    }
  }

  /** Adding a social account of an existing user for a new (provider, uid) keeps the tables
      consistent. */
  lemma AddAccountKeepsConsistent(t: Tables, a: SocialAccount)
    requires Consistent(t) && UserExists(t.users, a.user)
    requires forall k :: 0 <= k < |t.accounts| ==> !(t.accounts[k].provider == a.provider && t.accounts[k].uid == a.uid)
    ensures Consistent(t.(accounts := t.accounts + [a]))
  {
  }

  /** `create_user`: the required fields are checked in the order email, username, name;
      then the instance is built with the normalised email and inserted, which fails when a
      unique column already holds one of its values. */
  function Creation(t: Tables, normalize: string -> string, email: string, username: string, name: string,
                    password: Option<string>, extras: ExtraFields): (r: Result<User, CreateError>)
    ensures email == "" ==> r == Err(EmailRequired)
    ensures email != "" && username == "" ==> r == Err(UsernameRequired)
    ensures email != "" && username != "" && name == "" ==> r == Err(NameRequired)
    ensures r.Ok? ==> && r.value.id == t.nextId && r.value.email == normalize(email)
                      && r.value.username == username && r.value.name == name
                      && !Clashes(t.users, r.value)
    ensures email != "" && username != "" && name != "" ==>
      var u := Unsaved(t.nextId, normalize(email), username, name, password, extras);
      (r.Ok? <==> !Clashes(t.users, u)) && (r.Ok? ==> r.value == u) && (r.Err? ==> r == Err(IntegrityError))
  {
    if email == "" then Err(EmailRequired)
    else if username == "" then Err(UsernameRequired)
    else if name == "" then Err(NameRequired)
    else
      var u := Unsaved(t.nextId, normalize(email), username, name, password, extras);
      if Clashes(t.users, u) then Err(IntegrityError) else Ok(u)
  }

  /** The tables after a creation attempt: the row inserted, or nothing on failure. */
  function AfterCreation(t: Tables, r: Result<User, CreateError>): Tables
  {
    if r.Ok? then t.(users := t.users + [r.value], nextId := t.nextId + 1) else t
  }

  /** Inserting a created user keeps the tables consistent. */
  lemma CreationKeepsConsistent(t: Tables, normalize: string -> string, email: string, username: string, name: string,
                                password: Option<string>, extras: ExtraFields)
    requires Consistent(t)
    ensures Consistent(AfterCreation(t, Creation(t, normalize, email, username, name, password, extras)))
  {
    var r := Creation(t, normalize, email, username, name, password, extras);
    if r.Ok? {
      InsertUserKeepsConsistent(t, r.value);
    }
  }

  /** Inserting a row with the next id that clashes with no row keeps the tables consistent,
      and every user id still has its row. */
  lemma InsertUserKeepsConsistent(t: Tables, u: User)
    requires Consistent(t) && u.id == t.nextId && !Clashes(t.users, u)
    ensures Consistent(t.(users := t.users + [u], nextId := t.nextId + 1))
    ensures forall id :: UserExists(t.users, id) ==> UserExists(t.users + [u], id)
  {
    var users := t.users + [u];
    forall id | UserExists(t.users, id) ensures UserExists(users, id) {
      var k :| 0 <= k < |t.users| && t.users[k].id == id;
      assert users[k].id == id;
    }
    forall i, j | 0 <= i < j < |users|
      ensures users[i].id != users[j].id && !SameKey(users[i], users[j])
    {
      assert users[i] == t.users[i];
      if j == |t.users| {
        assert !(t.users[i].id != u.id && SameKey(t.users[i], u));
      } else {
        assert users[j] == t.users[j];
      }
    }
  }

  /** A plain `create_user` gives a user that is not admin, staff, superuser, active or
      social, has no social provider and no phone, and holds the given password. */
  lemma PlainUserDefaults(t: Tables, normalize: string -> string, email: string, username: string, name: string,
                          password: Option<string>)
    requires Creation(t, normalize, email, username, name, password, NoExtras).Ok?
    ensures var u := Creation(t, normalize, email, username, name, password, NoExtras).value;
      && !u.isAdmin && !u.isStaff && !u.isSuperuser && !u.isActive && !u.isSocial
      && u.socialLogin.None? && u.phone.None? && u.credential == SetPassword(password)
  {
  }

  /** The extra fields are stored as given, and a social user never gets a usable password. */
  lemma ExtraFieldsStored(t: Tables, normalize: string -> string, email: string, username: string, name: string,
                          password: Option<string>, extras: ExtraFields)
    requires Creation(t, normalize, email, username, name, password, extras).Ok?
    ensures var u := Creation(t, normalize, email, username, name, password, extras).value;
      && (extras.isActive.Some? ==> u.isActive == extras.isActive.value)
      && (extras.isAdmin.Some? ==> u.isAdmin == extras.isAdmin.value)
      && (extras.isStaff.Some? ==> u.isStaff == extras.isStaff.value)
      && (extras.isSuperuser.Some? ==> u.isSuperuser == extras.isSuperuser.value)
      && u.socialLogin == extras.socialLogin && u.phone == extras.phone
      && (extras.isSocial == Some(true) ==> u.isSocial && u.credential == Unusable)
      && (extras.isSocial != Some(true) ==> u.credential == SetPassword(password))
  {
  }

  /** Creating a user whose normalised email or whose username a row already holds fails
      with an integrity error. */
  lemma DuplicateRejected(t: Tables, normalize: string -> string, email: string, username: string, name: string,
                          password: Option<string>, extras: ExtraFields, k: nat)
    requires Consistent(t)
    requires email != "" && username != "" && name != ""
    requires k < |t.users| && (t.users[k].email == normalize(email) || t.users[k].username == username)
    ensures Creation(t, normalize, email, username, name, password, extras) == Err(IntegrityError)
  {
    var u := Unsaved(t.nextId, normalize(email), username, name, password, extras);
    assert t.users[k].id != u.id && SameKey(t.users[k], u);
  }

  /** With the required fields given, `create_user` succeeds exactly when no row already holds
      the normalised email, the username, or the (non-null) phone. */
  lemma CreationSucceedsExactly(t: Tables, normalize: string -> string, email: string, username: string, name: string,
                                password: Option<string>, extras: ExtraFields)
    requires Consistent(t)
    requires email != "" && username != "" && name != ""
    ensures Creation(t, normalize, email, username, name, password, extras).Ok? <==>
      forall k :: 0 <= k < |t.users| ==>
        && t.users[k].email != normalize(email) && t.users[k].username != username
        && (extras.phone.None? || t.users[k].phone != extras.phone)
  {
    var u := Unsaved(t.nextId, normalize(email), username, name, password, extras);
    if Clashes(t.users, u) {
      var k :| 0 <= k < |t.users| && t.users[k].id != u.id && SameKey(t.users[k], u);
      assert !(t.users[k].email != normalize(email) && t.users[k].username != username
               && (extras.phone.None? || t.users[k].phone != extras.phone));
    } else {
      forall k | 0 <= k < |t.users|
        ensures t.users[k].email != normalize(email) && t.users[k].username != username
                && (extras.phone.None? || t.users[k].phone != extras.phone)
      {
        assert t.users[k].id < t.nextId;
        assert !SameKey(t.users[k], u);
      }
    }
  }

  /** Repeating a successful `create_user` with the same arguments fails. */
  lemma SecondCreationFails(t: Tables, normalize: string -> string, email: string, username: string, name: string,
                            password: Option<string>, extras: ExtraFields)
    requires Consistent(t)
    requires Creation(t, normalize, email, username, name, password, extras).Ok?
    ensures var t' := AfterCreation(t, Creation(t, normalize, email, username, name, password, extras));
      Creation(t', normalize, email, username, name, password, extras) == Err(IntegrityError)
  {
    var t' := AfterCreation(t, Creation(t, normalize, email, username, name, password, extras));
    DuplicateRejected(t', normalize, email, username, name, password, extras, |t.users|) by {
      CreationKeepsConsistent(t, normalize, email, username, name, password, extras);
    }
  }

  /** `create_superuser`'s `setdefault` calls: the four flags become true unless given. */
  function SuperuserExtras(extras: ExtraFields): (r: ExtraFields)
    ensures r.isSuperuser == Some(OrElse(extras.isSuperuser, true))
    ensures r.isAdmin == Some(OrElse(extras.isAdmin, true))
    ensures r.isStaff == Some(OrElse(extras.isStaff, true))
    ensures r.isActive == Some(OrElse(extras.isActive, true))
    ensures r.isSocial == extras.isSocial && r.socialLogin == extras.socialLogin && r.phone == extras.phone
  {
    extras.(isSuperuser := Some(OrElse(extras.isSuperuser, true)),
            isAdmin := Some(OrElse(extras.isAdmin, true)),
            isStaff := Some(OrElse(extras.isStaff, true)),
            isActive := Some(OrElse(extras.isActive, true)))
  }

  /** A superuser created without extra fields is superuser, admin, staff and active, and
      not social. */
  lemma SuperuserDefaults(t: Tables, normalize: string -> string, email: string, username: string, name: string,
                          password: Option<string>)
    requires Creation(t, normalize, email, username, name, password, SuperuserExtras(NoExtras)).Ok?
    ensures var u := Creation(t, normalize, email, username, name, password, SuperuserExtras(NoExtras)).value;
      u.isSuperuser && u.isAdmin && u.isStaff && u.isActive && !u.isSocial && u.socialLogin.None?
      && u.credential == SetPassword(password)
  {
  }

  /** `str(user)`: the user's email. */
  function Label(u: User): (r: string)
    ensures r == u.email
  {
    u.email
  }

  /** `request.user`: a row of the user table, or the framework's anonymous user, whose
      `is_staff` and `is_superuser` are false and which has no `is_admin` attribute. */
  datatype Requester = Anonymous | Authenticated(user: User)

  /** The account tables, changed in place by the manager and the services. `normalize` is
      the framework's `normalize_email`, supplied from outside. */
  class UserRegistry {
    var users: seq<User>
    var accounts: seq<SocialAccount>
    var addresses: seq<EmailAddress>
    var nextId: Id
    const normalize: string -> string

    function State(): Tables
      reads this
    {
      Tables(users, accounts, addresses, nextId)
    }

    ghost predicate Valid()
      reads this
    {
      Consistent(State())
    }

    constructor (normalize: string -> string)
      ensures Valid() && State() == Tables([], [], [], 1) && this.normalize == normalize
    {
      users, accounts, addresses, nextId := [], [], [], 1;
      this.normalize := normalize;
    }

    /** `UserManager.create_user`. */
    method CreateUser(email: string, username: string, name: string, password: Option<string>, extras: ExtraFields)
      returns (r: Result<User, CreateError>)
      requires Valid()
      modifies this
      ensures Valid()
      ensures r == Creation(old(State()), normalize, email, username, name, password, extras)
      ensures State() == AfterCreation(old(State()), r)
    {
      CreationKeepsConsistent(State(), normalize, email, username, name, password, extras);
      r := Creation(State(), normalize, email, username, name, password, extras);
      if r.Ok? {
        users := users + [r.value];
        nextId := nextId + 1;
      }
    }

    /** `UserManager.create_superuser`. */
    method CreateSuperuser(email: string, username: string, name: string, password: Option<string>, extras: ExtraFields)
      returns (r: Result<User, CreateError>)
      requires Valid()
      modifies this
      ensures Valid()
      ensures r == Creation(old(State()), normalize, email, username, name, password, SuperuserExtras(extras))
      ensures State() == AfterCreation(old(State()), r)
    {
      r := CreateUser(email, username, name, password, SuperuserExtras(extras));
    }
  }
}

=== FILE: accounts_serializers.dfy ===
/** The login serializer's validation. The framework's `authenticate` and the token issuer
    are parameters: `authenticate` answers the user whose credentials match, if any, and
    `issue` gives the (access, refresh) token strings for a user. */
module LoginValidation {
  import opened Common
  import opened AccountModels
  import opened AccountServices

  const MissingFieldsMessage: string := "이메일과 비밀번호를 모두 입력해주세요."
  /** Lifetime announced to the client, in seconds (24 hours). */
  const ExpiresIn: int := 86400

  /** The fields `validate` reads; either may be absent. */
  datatype LoginData = LoginData(email: Option<string>, password: Option<string>)

  datatype Login = Login(user: User, accessToken: string, refreshToken: string, expiresIn: int)

  /** `LoginSerializer.validate`. */
  function Validate(data: LoginData, authenticate: (string, string) -> Option<User>,
                    issue: User -> (string, string)): (r: Result<Login, string>)
    ensures !(Truthy(data.email) && Truthy(data.password)) ==> r == Err(MissingFieldsMessage)
    ensures Truthy(data.email) && Truthy(data.password) ==>
      var found := authenticate(data.email.value, data.password.value);
      && (found.None? ==> r == Err(BadCredentialsMessage))
      && (found.Some? && !found.value.isActive ==> r == Err(VerificationNeededMessage))
      && (found.Some? && found.value.isActive ==>
            r == Ok(Login(found.value, issue(found.value).0, issue(found.value).1, ExpiresIn)))
  {
    if Truthy(data.email) && Truthy(data.password) then
      var found := authenticate(data.email.value, data.password.value);
      if found.None? then Err(BadCredentialsMessage)
      else if !found.value.isActive then Err(VerificationNeededMessage)
      else
        var tokens := issue(found.value);
        Ok(Login(found.value, tokens.0, tokens.1, ExpiresIn))
    else Err(MissingFieldsMessage)
  }

  /** A missing or empty field is rejected before any credential is checked: the answer does
      not depend on the authenticator or the issuer. */
  lemma MissingFieldsNeverAuthenticate(data: LoginData,
                                       auth1: (string, string) -> Option<User>, issue1: User -> (string, string),
                                       auth2: (string, string) -> Option<User>, issue2: User -> (string, string))
    requires !Truthy(data.email) || !Truthy(data.password)
    ensures Validate(data, auth1, issue1) == Validate(data, auth2, issue2)
  {
  }

  /** The serializer and the service's `authenticate_user` agree: a login succeeds exactly
      when the service accepts the user, and fails with the service's message otherwise. */
  lemma AgreesWithAuthService(data: LoginData, authenticate: (string, string) -> Option<User>,
                              issue: User -> (string, string))
    requires Truthy(data.email) && Truthy(data.password)
    ensures var outcome := AuthenticateUser(authenticate(data.email.value, data.password.value));
      var r := Validate(data, authenticate, issue);
      && (r.Ok? <==> outcome.0.Some?)
      && (r.Ok? ==> r.value.user == outcome.0.value && r.value.user.isActive)
      && (r.Err? ==> outcome.1 == Some(r.error))
  {
  }
}

=== FILE: accounts_services.dfy ===
/** The account services: the authentication outcome, social-login configuration and the
    get-or-link-or-create rule, the uniqueness checks and look-ups, and the profile,
    activation and password updates. Framework calls (`authenticate`, the OAuth adapters'
    settings) are parameters. */
module AccountServices {
  import opened Common
  import opened AccountModels

  const BadCredentialsMessage: string := "이메일 또는 비밀번호가 올바르지 않습니다."
  const VerificationNeededMessage: string := "이메일 인증이 필요합니다."
  const EmailTakenMessage: string := "이미 사용 중인 이메일입니다."
  const UsernameTakenMessage: string := "이미 사용 중인 닉네임입니다."
  const PhoneTakenMessage: string := "이미 사용 중인 전화번호입니다."
  const NoAccountForEmailMessage: string := "입력하신 이메일로 등록된 계정이 없습니다."
  const NoMatchingMemberMessage: string := "입력하신 정보와 일치하는 회원이 없습니다."
  const WrongPasswordMessage: string := "현재 비밀번호가 일치하지 않습니다."

  // ---------------------------------------------------------------------------------
  // Queries

  /** The outcome of the ORM's `get`: one row, none, or several (an uncaught error). */
  datatype Lookup = Found(user: User) | DoesNotExist | MultipleObjectsReturned

  function Get(users: seq<User>, p: User -> bool): (r: Lookup)
    ensures r.DoesNotExist? <==> forall u :: u in users ==> !p(u)
    ensures r.Found? <==> |Filter(users, p)| == 1
    ensures r.MultipleObjectsReturned? <==> |Filter(users, p)| > 1
    ensures r.Found? ==> r.user in users && p(r.user)
    ensures r.Found? <==> HasOne(users, p)
    ensures r.MultipleObjectsReturned? <==> HasTwo(users, p)
  {
    FilterHasTwo(users, p);
    FilterHasOne(users, p);
    var m := Filter(users, p);
    if |m| == 0 then DoesNotExist
    else if |m| == 1 then
      assert m[0] in m;
      Found(m[0])
    else
      assert m[0] in m;
      MultipleObjectsReturned
  }

  // ---------------------------------------------------------------------------------
  // AuthService

  /** `authenticate_user`, given what the framework's `authenticate` returned. */
  function AuthenticateUser(authenticated: Option<User>): (r: (Option<User>, Option<string>))
    ensures authenticated.None? ==> r == (None, Some(BadCredentialsMessage))
    ensures authenticated.Some? && !authenticated.value.isActive ==> r == (None, Some(VerificationNeededMessage))
    ensures authenticated.Some? && authenticated.value.isActive ==> r == (authenticated, None)
  {
    if authenticated.None? then (None, Some(BadCredentialsMessage))
    else if !authenticated.value.isActive then (None, Some(VerificationNeededMessage))
    else (authenticated, None)
  }

  // ---------------------------------------------------------------------------------
  // SocialLoginService

  datatype Provider = Naver | Kakao

  /** The OAuth settings the configuration is read from. */
  datatype SocialSettings = SocialSettings(
    naverCallbackUrl: string, naverClientId: string, naverClientSecret: string,
    kakaoCallbackUrl: string, kakaoClientId: string, kakaoClientSecret: string)

  datatype AdapterConfig = AdapterConfig(adapter: Provider, callbackUrl: string, clientId: string, clientSecret: string)

  /** `get_adapter_config`: the naver or kakao adapter with its own settings, nothing for any
      other provider name. */
  function GetAdapterConfig(socialType: string, settings: SocialSettings): (r: Option<AdapterConfig>)
    ensures r.Some? <==> socialType == "naver" || socialType == "kakao"
    ensures socialType == "naver" ==> r == Some(AdapterConfig(Naver, settings.naverCallbackUrl,
                                                  settings.naverClientId, settings.naverClientSecret))
    ensures socialType == "kakao" ==> r == Some(AdapterConfig(Kakao, settings.kakaoCallbackUrl,
                                                  settings.kakaoClientId, settings.kakaoClientSecret))
  {
    if socialType == "naver" then
      Some(AdapterConfig(Naver, settings.naverCallbackUrl, settings.naverClientId, settings.naverClientSecret))
    else if socialType == "kakao" then
      Some(AdapterConfig(Kakao, settings.kakaoCallbackUrl, settings.kakaoClientId, settings.kakaoClientSecret))
    else None
  }

  /** What the provider reported about the person logging in. */
  datatype SocialInfo = SocialInfo(email: string, uid: string, extraData: string)

  /** A service call's result together with the tables it leaves behind. */
  datatype Step = Step(result: Result<User, CreateError>, after: Tables)

  /** The index of the first social account for (provider, uid). */
  function FindAccount(accounts: seq<SocialAccount>, provider: string, uid: string): (r: Option<nat>)
    ensures r.None? <==> forall k :: 0 <= k < |accounts| ==> !(accounts[k].provider == provider && accounts[k].uid == uid)
    ensures r.Some? ==> r.value < |accounts| && accounts[r.value].provider == provider && accounts[r.value].uid == uid
  {
    if |accounts| == 0 then None
    else if accounts[0].provider == provider && accounts[0].uid == uid then Some(0)
    else
      match FindAccount(accounts[1..], provider, uid)
      case None => None
      case Some(k) => Some(k + 1)
  }

  /** The index of the first user row satisfying `p`. */
  function FindUser(users: seq<User>, p: User -> bool): (r: Option<nat>)
    ensures r.None? <==> forall k :: 0 <= k < |users| ==> !p(users[k])
    ensures r.Some? ==> r.value < |users| && p(users[r.value])
    ensures r.Some? ==> forall j :: 0 <= j < r.value ==> !p(users[j])
  {
    if |users| == 0 then None
    else if p(users[0]) then Some(0)
    else
      match FindUser(users[1..], p)
      case None => None
      case Some(k) => Some(k + 1)
  }

  /** The extra fields `get_or_create_social_user` passes when it creates a user. */
  function SocialExtras(socialType: string): ExtraFields
  {
    ExtraFields(None, None, None, Some(true), Some(true), Some(socialType), None)
  }

  /** `EmailAddress.objects.get_or_create(...)` with all four fields given. */
  function GetOrCreateAddress(addresses: seq<EmailAddress>, a: EmailAddress): (r: seq<EmailAddress>)
    ensures a in r && forall x :: x in addresses ==> x in r
    ensures forall x :: x in r ==> x in addresses || x == a
  {
    if a in addresses then addresses else addresses + [a]
  }

  /** `get_or_create_social_user`: (1) an existing account for (provider, uid) gives its
      user and changes nothing; (2) otherwise a user with that exact email gets a new social
      account and is marked social for this provider; (3) otherwise a new active social
      user is created with username "{provider}_{local part}" and the local part as name,
      with its social account and a verified primary email address. */
  function SocialLogin(t: Tables, normalize: string -> string, socialType: string, info: SocialInfo): (s: Step)
    requires Consistent(t)
    ensures s.result.Err? ==> s.after == t
    ensures s.result.Ok? ==> s.result.value in s.after.users
  {
    match FindAccount(t.accounts, socialType, info.uid)
    case Some(k) =>
      assert t.accounts[k] in t.accounts;
      var i := FindUser(t.users, (u: User) => u.id == t.accounts[k].user).value;
      Step(Ok(t.users[i]), t)
    case None =>
      match FindUser(t.users, (u: User) => u.email == info.email)
      case Some(i) =>
        var linked := t.users[i].(isSocial := true, socialLogin := Some(socialType));
        var users := t.users[i := linked];
        assert users[i] == linked;
        Step(Ok(linked), t.(users := users,
                            accounts := t.accounts + [SocialAccount(linked.id, socialType, info.uid, info.extraData)]))
      case None =>
        var local := LocalPart(info.email);
        var r := Creation(t, normalize, info.email, socialType + "_" + local, local, None, SocialExtras(socialType));
        if r.Err? then Step(r, t)
        else
          var created := AfterCreation(t, r);
          Step(r, created.(accounts := created.accounts + [SocialAccount(r.value.id, socialType, info.uid, info.extraData)],
                           addresses := GetOrCreateAddress(created.addresses, EmailAddress(r.value.id, info.email, true, true))))
  }

  /** Branch (1): an existing social account returns its own user and adds no row. */
  lemma SocialLoginExistingAccount(t: Tables, normalize: string -> string, socialType: string, info: SocialInfo, k: nat)
    requires Consistent(t)
    requires k < |t.accounts| && t.accounts[k].provider == socialType && t.accounts[k].uid == info.uid
    ensures SocialLogin(t, normalize, socialType, info).after == t
    ensures SocialLogin(t, normalize, socialType, info).result.Ok?
    ensures SocialLogin(t, normalize, socialType, info).result.value.id == t.accounts[k].user
    ensures SocialLogin(t, normalize, socialType, info).result.value in t.users
  {
    var f := FindAccount(t.accounts, socialType, info.uid);
    assert f == Some(k);
    assert t.accounts[k] in t.accounts;
  }

  /** Branch (2): a user holding the email is linked: same users (that one now social for
      this provider), one more social account, nothing else changed. */
  lemma SocialLoginLinksByEmail(t: Tables, normalize: string -> string, socialType: string, info: SocialInfo, i: nat)
    requires Consistent(t)
    requires FindAccount(t.accounts, socialType, info.uid).None?
    requires i < |t.users| && t.users[i].email == info.email
    ensures var s := SocialLogin(t, normalize, socialType, info);
      && s.result == Ok(t.users[i].(isSocial := true, socialLogin := Some(socialType)))
      && s.after.users == t.users[i := s.result.value]
      && s.after.accounts == t.accounts + [SocialAccount(t.users[i].id, socialType, info.uid, info.extraData)]
      && s.after.addresses == t.addresses && s.after.nextId == t.nextId
  {
    var f := FindUser(t.users, (u: User) => u.email == info.email);
    assert f == Some(i);
  }

  /** Branch (3): with no account and no user for the email, the call succeeds exactly when
      the email has a local part and no row holds the normalised email or the generated
      username; it then creates an active social user named after the local part, with an
      unusable password, plus its social account and a verified primary address. */
  lemma SocialLoginCreates(t: Tables, normalize: string -> string, socialType: string, info: SocialInfo)
    requires Consistent(t)
    requires FindAccount(t.accounts, socialType, info.uid).None?
    requires forall k :: 0 <= k < |t.users| ==> t.users[k].email != info.email
    ensures SocialLogin(t, normalize, socialType, info).result.Ok? <==>
      && LocalPart(info.email) != ""
      && forall k :: 0 <= k < |t.users| ==>
           t.users[k].email != normalize(info.email) && t.users[k].username != socialType + "_" + LocalPart(info.email)
    ensures var s := SocialLogin(t, normalize, socialType, info);
      s.result.Ok? ==>
      var u := s.result.value;
      && u.username == socialType + "_" + LocalPart(info.email)
      && u.name == LocalPart(info.email) && u.email == normalize(info.email)
      && u.isActive && u.isSocial && u.socialLogin == Some(socialType) && u.credential == Unusable
      && s.after.users == t.users + [u]
      && s.after.accounts == t.accounts + [SocialAccount(u.id, socialType, info.uid, info.extraData)]
      && EmailAddress(u.id, info.email, true, true) in s.after.addresses
  {
    var local := LocalPart(info.email);
    assert FindUser(t.users, (u: User) => u.email == info.email).None?;
    if local != "" {
      CreationSucceedsExactly(t, normalize, info.email, socialType + "_" + local, local, None, SocialExtras(socialType));
    }
  }

  /** An email without a local part (empty, or starting with '@') makes branch (3) fail
      on the required-field checks, and nothing is written. */
  lemma SocialLoginNeedsLocalPart(t: Tables, normalize: string -> string, socialType: string, info: SocialInfo)
    requires Consistent(t)
    requires FindAccount(t.accounts, socialType, info.uid).None?
    requires forall k :: 0 <= k < |t.users| ==> t.users[k].email != info.email
    requires LocalPart(info.email) == ""
    ensures SocialLogin(t, normalize, socialType, info).result.Err?
    ensures SocialLogin(t, normalize, socialType, info).after == t
  {
  }

  /** Linking row `i` to a new (provider, uid) account keeps the tables consistent. */
  lemma LinkKeepsConsistent(t: Tables, i: nat, socialType: string, info: SocialInfo)
    requires Consistent(t) && i < |t.users|
    requires FindAccount(t.accounts, socialType, info.uid).None?
    ensures var linked := t.users[i].(isSocial := true, socialLogin := Some(socialType));
      Consistent(t.(users := t.users[i := linked],
                    accounts := t.accounts + [SocialAccount(linked.id, socialType, info.uid, info.extraData)]))
  {
    var linked := t.users[i].(isSocial := true, socialLogin := Some(socialType));
    SameKeysNoClash(t.users, i, linked);
    ReplaceUserKeepsConsistent(t, i, linked);
    var saved := t.(users := t.users[i := linked]);
    assert UserExists(saved.users, linked.id) by { assert saved.users[i] == linked; }
    AddAccountKeepsConsistent(saved, SocialAccount(linked.id, socialType, info.uid, info.extraData));
  }

  /** Creating the social user with its account and address keeps the tables consistent. */
  lemma CreateSocialKeepsConsistent(t: Tables, normalize: string -> string, socialType: string, info: SocialInfo)
    requires Consistent(t)
    requires FindAccount(t.accounts, socialType, info.uid).None?
    ensures var local := LocalPart(info.email);
      var r := Creation(t, normalize, info.email, socialType + "_" + local, local, None, SocialExtras(socialType));
      var created := AfterCreation(t, r);
      r.Ok? ==> Consistent(created.(accounts := created.accounts + [SocialAccount(r.value.id, socialType, info.uid, info.extraData)],
                                    addresses := GetOrCreateAddress(created.addresses, EmailAddress(r.value.id, info.email, true, true))))
  {
    var local := LocalPart(info.email);
    CreationKeepsConsistent(t, normalize, info.email, socialType + "_" + local, local, None, SocialExtras(socialType));
    var r := Creation(t, normalize, info.email, socialType + "_" + local, local, None, SocialExtras(socialType));
    if r.Ok? {
      var created := AfterCreation(t, r);
      assert UserExists(created.users, r.value.id) by { assert created.users[|t.users|] == r.value; }
      AddAccountKeepsConsistent(created, SocialAccount(r.value.id, socialType, info.uid, info.extraData));
      var linked := created.(accounts := created.accounts + [SocialAccount(r.value.id, socialType, info.uid, info.extraData)]);
      AddAddressKeepsConsistent(linked, EmailAddress(r.value.id, info.email, true, true));
    }
  }

  /** `get_or_create` of an address row for an existing user keeps the tables consistent. */
  lemma AddAddressKeepsConsistent(t: Tables, e: EmailAddress)
    requires Consistent(t) && UserExists(t.users, e.user)
    ensures Consistent(t.(addresses := GetOrCreateAddress(t.addresses, e)))
  {
  }

  /** Every branch leaves the account tables consistent. */
  lemma SocialLoginKeepsConsistent(t: Tables, normalize: string -> string, socialType: string, info: SocialInfo)
    requires Consistent(t)
    ensures Consistent(SocialLogin(t, normalize, socialType, info).after)
  {
    if FindAccount(t.accounts, socialType, info.uid).None? {
      var fu := FindUser(t.users, (u: User) => u.email == info.email);
      if fu.Some? {
        LinkKeepsConsistent(t, fu.value, socialType, info);
      } else {
        CreateSocialKeepsConsistent(t, normalize, socialType, info);
      }
    }
  }

  /** After a successful social login the (provider, uid) account exists at index `k` and
      points at the returned user, which is row `j`. */
  lemma SocialLoginRecordsAccount(t: Tables, normalize: string -> string, socialType: string, info: SocialInfo)
    returns (k: nat, j: nat)
    requires Consistent(t)
    requires SocialLogin(t, normalize, socialType, info).result.Ok?
    ensures var s := SocialLogin(t, normalize, socialType, info);
      && k < |s.after.accounts| && s.after.accounts[k].provider == socialType && s.after.accounts[k].uid == info.uid
      && s.after.accounts[k].user == s.result.value.id
      && j < |s.after.users| && s.after.users[j] == s.result.value
  {
    var s := SocialLogin(t, normalize, socialType, info);
    var fa := FindAccount(t.accounts, socialType, info.uid);
    if fa.Some? {
      k := fa.value;
      j := FindUser(t.users, (v: User) => v.id == t.accounts[k].user).value;
    } else {
      k := |t.accounts|;
      var fu := FindUser(t.users, (v: User) => v.email == info.email);
      j := if fu.Some? then fu.value else |t.users|;
    }
  }

  /** Repeating a successful social login returns the same user and changes nothing. */
  lemma SocialLoginIdempotent(t: Tables, normalize: string -> string, socialType: string, info: SocialInfo)
    requires Consistent(t)
    requires SocialLogin(t, normalize, socialType, info).result.Ok?
    ensures var s := SocialLogin(t, normalize, socialType, info);
      Consistent(s.after) && SocialLogin(s.after, normalize, socialType, info) == s
  {
    var s := SocialLogin(t, normalize, socialType, info);
    SocialLoginKeepsConsistent(t, normalize, socialType, info);
    var k, j := SocialLoginRecordsAccount(t, normalize, socialType, info);
    SocialLoginExistingAccount(s.after, normalize, socialType, info, k);
    var again := SocialLogin(s.after, normalize, socialType, info);
    var m :| 0 <= m < |s.after.users| && s.after.users[m] == again.result.value;
    assert s.after.users[m].id == s.after.users[j].id;
  }

  // ---------------------------------------------------------------------------------
  // UserService: look-ups and uniqueness checks

  /** `find_user_by_email`: the user and no message, or no user and the not-found message.
      The email column is unique, so the look-up never finds several rows. */
  function FindUserByEmail(users: seq<User>, email: string): (r: (Option<User>, Option<string>))
    requires UniqueUsers(users)
    ensures r.0.Some? <==> exists u :: u in users && u.email == email
    ensures r.0.Some? ==> r.0.value in users && r.0.value.email == email
    ensures r.1 == (if r.0.Some? then None else Some(NoAccountForEmailMessage))
  {
    match Get(users, (u: User) => u.email == email)
    case Found(u) => (Some(u), None)
    case DoesNotExist => (None, Some(NoAccountForEmailMessage))
    case MultipleObjectsReturned =>
      AtMostOneMatch(users, (u: User) => u.email == email);
      assert false;
      (None, Some(NoAccountForEmailMessage))
  }

  /** When any two rows satisfying `p` would share a unique column, a filter by `p` yields
      at most one row. */
  lemma {:induction false} AtMostOneMatch(users: seq<User>, p: User -> bool)
    requires UniqueUsers(users)
    requires forall u, v :: p(u) && p(v) ==> SameKey(u, v)
    ensures |Filter(users, p)| <= 1
  {
    if |users| > 0 {
      AtMostOneMatch(users[1..], p);
      if p(users[0]) {
        forall u | u in users[1..] ensures !p(u) {
          var j :| 0 <= j < |users[1..]| && users[1..][j] == u;
          assert !SameKey(users[0], users[j + 1]);
        }
        assert Filter(users[1..], p) == [];
      }
    }
  }

  /** The name of the exception `get` raises when several rows match. */
  const MultipleRowsError: string := "MultipleObjectsReturned"

  /** `find_user_by_name_and_phone`: the user and no message, or no user and the no-match
      message; several matching rows make the call raise (`Err`). A `None` phone matches
      the rows without a phone. */
  function FindUserByNameAndPhone(users: seq<User>, name: string, phone: Option<string>)
    : (r: Result<(Option<User>, Option<string>), string>)
    ensures r.Ok? && r.value.0.None? <==> forall u :: u in users ==> !(u.name == name && u.phone == phone)
    ensures r.Ok? && r.value.0.Some? ==>
      r.value.0.value in users && r.value.0.value.name == name && r.value.0.value.phone == phone && r.value.1.None?
    ensures r.Ok? && r.value.0.None? ==> r.value.1 == Some(NoMatchingMemberMessage)
    ensures r.Err? ==> r.error == MultipleRowsError
    ensures r.Err? <==> |Filter(users, (u: User) => u.name == name && u.phone == phone)| > 1
    ensures (r.Ok? && r.value.0.Some?) <==> |Filter(users, (u: User) => u.name == name && u.phone == phone)| == 1
    ensures (r.Ok? && r.value.0.Some?) <==> HasOne(users, (u: User) => u.name == name && u.phone == phone)
    ensures r.Err? <==> HasTwo(users, (u: User) => u.name == name && u.phone == phone)
  {
    match Get(users, (u: User) => u.name == name && u.phone == phone)
    case Found(u) => Ok((Some(u), None))
    case DoesNotExist => Ok((None, Some(NoMatchingMemberMessage)))
    case MultipleObjectsReturned => Err(MultipleRowsError)
  }

  /** Phone numbers are unique, so a look-up with a phone never raises; only rows without
      a phone can make a name look-up ambiguous. */
  lemma NameAndPhoneRaisesOnlyWithoutPhone(users: seq<User>, name: string, phone: Option<string>)
    requires UniqueUsers(users)
    requires phone.Some?
    ensures FindUserByNameAndPhone(users, name, phone).Ok?
  {
    AtMostOneMatch(users, (u: User) => u.name == name && u.phone == phone);
  }

  /** Whether a uniqueness check answers "available" or "taken" with its message. */
  datatype Verdict = Available | Taken(message: string)

  /** `check_email_uniqueness`. */
  function CheckEmailUniqueness(users: seq<User>, email: string): (r: Verdict)
    ensures r.Taken? <==> exists u :: u in users && u.email == email
    ensures r.Taken? ==> r.message == EmailTakenMessage
  {
    if |Filter(users, (u: User) => u.email == email)| > 0 then
      assert Filter(users, (u: User) => u.email == email)[0] in Filter(users, (u: User) => u.email == email);
      Taken(EmailTakenMessage)
    else Available
  }

  /** The row `exclude(id=user_id)` leaves out; a missing or zero `user_id` is falsy and
      excludes nothing. */
  predicate Excluded(u: User, userId: Option<Id>)
  {
    userId.Some? && userId.value != 0 && u.id == userId.value
  }

  /** `check_username_uniqueness`. */
  function CheckUsernameUniqueness(users: seq<User>, username: string, userId: Option<Id>): (r: Verdict)
    ensures r.Taken? <==> exists u :: u in users && u.username == username && !Excluded(u, userId)
    ensures r.Taken? ==> r.message == UsernameTakenMessage
  {
    var m := Filter(users, (u: User) => u.username == username && !Excluded(u, userId));
    if |m| > 0 then
      assert m[0] in m;
      Taken(UsernameTakenMessage)
    else Available
  }

  /** `check_phone_uniqueness`: an empty or missing phone is available without a query. */
  function CheckPhoneUniqueness(users: seq<User>, phone: Option<string>, userId: Option<Id>): (r: Verdict)
    ensures !Truthy(phone) ==> r == Available
    ensures Truthy(phone) ==> (r.Taken? <==> exists u :: u in users && u.phone == phone && !Excluded(u, userId))
    ensures r.Taken? ==> r.message == PhoneTakenMessage
  {
    if !Truthy(phone) then Available
    else
      var m := Filter(users, (u: User) => u.phone == phone && !Excluded(u, userId));
      if |m| > 0 then
        assert m[0] in m;
        Taken(PhoneTakenMessage)
      else Available
  }

  /** A user re-submitting its own username or phone, with its own id, never conflicts. */
  lemma OwnValuesAvailable(t: Tables, k: nat)
    requires Consistent(t)
    requires k < |t.users|
    ensures CheckUsernameUniqueness(t.users, t.users[k].username, Some(t.users[k].id)) == Available
    ensures CheckPhoneUniqueness(t.users, t.users[k].phone, Some(t.users[k].id)) == Available
  {
    var me := t.users[k];
    forall u | u in t.users && (u.username == me.username || (me.phone.Some? && u.phone == me.phone))
      ensures Excluded(u, Some(me.id))
    {
      var j :| 0 <= j < |t.users| && t.users[j] == u;
    }
  }

  /** `verify_current_password`. */
  function VerifyCurrentPassword(u: User, current: string): (r: (bool, Option<string>))
    ensures r.0 <==> CheckPassword(u.credential, current)
    ensures r.1 == (if r.0 then None else Some(WrongPasswordMessage))
  {
    if !CheckPassword(u.credential, current) then (false, Some(WrongPasswordMessage)) else (true, None)
  }

  // ---------------------------------------------------------------------------------
  // UserService: updates

  /** The instance `update_user_profile` saves: username and phone replaced only by
      non-empty values. */
  function ProfileEdit(u: User, username: Option<string>, phone: Option<string>): (r: User)
    ensures r.username == (if Truthy(username) then username.value else u.username)
    ensures r.phone == (if Truthy(phone) then phone else u.phone)
    ensures r.(username := u.username, phone := u.phone) == u
  {
    u.(username := if Truthy(username) then username.value else u.username,
       phone := if Truthy(phone) then phone else u.phone)
  }

  /** `update_user_profile` on row `i`: the save fails when the new values clash with
      another row, and then nothing is written. */
  function ProfileUpdate(t: Tables, i: nat, username: Option<string>, phone: Option<string>): (s: Step)
    requires i < |t.users|
    ensures s.result.Err? ==> s.result == Err(IntegrityError) && s.after == t
    ensures s.result.Err? <==> Clashes(t.users, ProfileEdit(t.users[i], username, phone))
    ensures s.result.Ok? ==> s.result.value == ProfileEdit(t.users[i], username, phone)
    ensures s.result.Ok? ==>
      && s.result.value.id == t.users[i].id && !Clashes(t.users, s.result.value)
      && s.after == t.(users := t.users[i := s.result.value])
  {
    var edited := ProfileEdit(t.users[i], username, phone);
    if Clashes(t.users, edited) then Step(Err(IntegrityError), t)
    else Step(Ok(edited), t.(users := t.users[i := edited]))
  }

  /** A profile update is saved exactly when no other row holds the resulting username, nor
      the resulting phone when there is one. */
  lemma ProfileUpdateSucceedsExactly(t: Tables, i: nat, username: Option<string>, phone: Option<string>)
    requires Consistent(t) && i < |t.users|
    ensures var e := ProfileEdit(t.users[i], username, phone);
      ProfileUpdate(t, i, username, phone).result.Ok? <==>
        forall k :: 0 <= k < |t.users| && k != i ==>
          t.users[k].username != e.username && (e.phone.None? || t.users[k].phone != e.phone)
  {
    var e := ProfileEdit(t.users[i], username, phone);
    if Clashes(t.users, e) {
      var k :| 0 <= k < |t.users| && t.users[k].id != e.id && SameKey(t.users[k], e);
      assert k != i;
      if k < i {
        assert !SameKey(t.users[k], t.users[i]);
      } else {
        assert !SameKey(t.users[i], t.users[k]);
      }
      assert !(t.users[k].username != e.username && (e.phone.None? || t.users[k].phone != e.phone));
    } else {
      forall k | 0 <= k < |t.users| && k != i
        ensures t.users[k].username != e.username && (e.phone.None? || t.users[k].phone != e.phone)
      {
        if k < i {
          assert t.users[k].id != t.users[i].id;
        } else {
          assert t.users[i].id != t.users[k].id;
        }
        assert !SameKey(t.users[k], e);
      }
    }
  }

  /** A profile update touches only the edited row's username and phone; with neither given
      it writes nothing. */
  lemma ProfileUpdateOnlyTouchesProfile(t: Tables, i: nat, username: Option<string>, phone: Option<string>)
    requires Consistent(t) && i < |t.users|
    ensures var s := ProfileUpdate(t, i, username, phone);
      && s.after.accounts == t.accounts && s.after.addresses == t.addresses && s.after.nextId == t.nextId
      && |s.after.users| == |t.users|
      && (forall j :: 0 <= j < |t.users| && j != i ==> s.after.users[j] == t.users[j])
      && (s.result.Ok? ==>
            s.after.users[i] == s.result.value
            && s.result.value.(username := t.users[i].username, phone := t.users[i].phone) == t.users[i])
      && (!Truthy(username) && !Truthy(phone) ==> s == Step(Ok(t.users[i]), t))
  {
    if !Truthy(username) && !Truthy(phone) {
      var u := t.users[i];
      assert ProfileEdit(u, username, phone) == u;
      assert !Clashes(t.users, u);
      assert t.users[i := u] == t.users;
    }
  }

  /** A successful profile update keeps the tables consistent. */
  lemma ProfileUpdateKeepsConsistent(t: Tables, i: nat, username: Option<string>, phone: Option<string>)
    requires Consistent(t) && i < |t.users|
    ensures Consistent(ProfileUpdate(t, i, username, phone).after)
  {
    var s := ProfileUpdate(t, i, username, phone);
    if s.result.Ok? {
      ReplaceUserKeepsConsistent(t, i, s.result.value);
    }
  }

  /** Marks the user's address rows for `email` verified and primary. */
  function MarkVerified(addresses: seq<EmailAddress>, user: Id, email: string): (r: seq<EmailAddress>)
    ensures |r| == |addresses|
    ensures forall k :: 0 <= k < |r| ==>
      r[k] == (if addresses[k].user == user && addresses[k].email == email
               then addresses[k].(verified := true, primary := true) else addresses[k])
  {
    if |addresses| == 0 then []
    else
      var a := addresses[0];
      [if a.user == user && a.email == email then a.(verified := true, primary := true) else a]
        + MarkVerified(addresses[1..], user, email)
  }

  /** `activate_user` on row `i`: the user becomes active and its address rows for its own
      email become verified and primary. */
  function Activated(t: Tables, i: nat): (r: Tables)
    requires i < |t.users|
    ensures r.users == t.users[i := t.users[i].(isActive := true)]
    ensures r.accounts == t.accounts && r.nextId == t.nextId && |r.addresses| == |t.addresses|
    ensures forall k :: 0 <= k < |r.addresses| ==>
      var a := t.addresses[k];
      r.addresses[k] == if a.user == t.users[i].id && a.email == t.users[i].email
                        then a.(verified := true, primary := true) else a
  {
    var u := t.users[i].(isActive := true);
    t.(users := t.users[i := u], addresses := MarkVerified(t.addresses, u.id, u.email))
  }

  /** Activation keeps the tables consistent. */
  lemma ActivationKeepsConsistent(t: Tables, i: nat)
    requires Consistent(t) && i < |t.users|
    ensures Consistent(Activated(t, i))
  {
    var r := Activated(t, i);
    var u := t.users[i].(isActive := true);
    SameKeysNoClash(t.users, i, u);
    ReplaceUserKeepsConsistent(t, i, u);
    forall e | e in r.addresses ensures UserExists(r.users, e.user) {
      var k :| 0 <= k < |r.addresses| && r.addresses[k] == e;
      assert t.addresses[k] in t.addresses;
    }
  }

  /** Row `i` with a newly set password (`reset_password`, `update_password`). */
  function PasswordChanged(t: Tables, i: nat, newPassword: string): (r: Tables)
    requires i < |t.users|
    ensures r.users == t.users[i := t.users[i].(credential := PasswordSet(newPassword))]
    ensures r.accounts == t.accounts && r.addresses == t.addresses && r.nextId == t.nextId
    ensures CheckPassword(r.users[i].credential, newPassword)
  {
    t.(users := t.users[i := t.users[i].(credential := PasswordSet(newPassword))])
  }

  lemma PasswordChangeKeepsConsistent(t: Tables, i: nat, newPassword: string)
    requires Consistent(t) && i < |t.users|
    ensures Consistent(PasswordChanged(t, i, newPassword))
  {
    var u := t.users[i].(credential := PasswordSet(newPassword));
    SameKeysNoClash(t.users, i, u);
    ReplaceUserKeepsConsistent(t, i, u);
  }

  // ---------------------------------------------------------------------------------
  // The services as updates of the registry

  /** The row index of an existing user id. */
  function RowOf(users: seq<User>, id: Id): (i: nat)
    requires UserExists(users, id)
    ensures i < |users| && users[i].id == id
  {
    FindUser(users, (u: User) => u.id == id).value
  }

  /** `get_or_create_social_user`. */
  method GetOrCreateSocialUser(reg: UserRegistry, socialType: string, info: SocialInfo)
    returns (r: Result<User, CreateError>)
    requires reg.Valid()
    modifies reg
    ensures reg.Valid()
    ensures Step(r, reg.State()) == SocialLogin(old(reg.State()), reg.normalize, socialType, info)
  {
    var s := SocialLogin(reg.State(), reg.normalize, socialType, info);
    SocialLoginKeepsConsistent(reg.State(), reg.normalize, socialType, info);
    reg.users, reg.accounts, reg.addresses, reg.nextId := s.after.users, s.after.accounts, s.after.addresses, s.after.nextId;
    r := s.result;
  }

  /** `update_user_profile` for the user with id `userId`. */
  method UpdateUserProfile(reg: UserRegistry, userId: Id, username: Option<string>, phone: Option<string>)
    returns (r: Result<User, CreateError>)
    requires reg.Valid() && UserExists(reg.users, userId)
    modifies reg
    ensures reg.Valid()
    ensures Step(r, reg.State()) == ProfileUpdate(old(reg.State()), RowOf(old(reg.users), userId), username, phone)
  {
    var i := RowOf(reg.users, userId);
    ProfileUpdateKeepsConsistent(reg.State(), i, username, phone);
    var s := ProfileUpdate(reg.State(), i, username, phone);
    reg.users := s.after.users;
    r := s.result;
  }

  /** `activate_user` for the user with id `userId`. */
  method ActivateUser(reg: UserRegistry, userId: Id) returns (u: User)
    requires reg.Valid() && UserExists(reg.users, userId)
    modifies reg
    ensures reg.Valid()
    ensures reg.State() == Activated(old(reg.State()), RowOf(old(reg.users), userId))
    ensures u == reg.users[RowOf(old(reg.users), userId)] && u.isActive
  {
    var i := RowOf(reg.users, userId);
    ActivationKeepsConsistent(reg.State(), i);
    var t := Activated(reg.State(), i);
    reg.users, reg.addresses := t.users, t.addresses;
    u := reg.users[i];
  }

  /** `reset_password`: sets the new password and answers true. */
  method ResetPassword(reg: UserRegistry, userId: Id, newPassword: string) returns (done: bool)
    requires reg.Valid() && UserExists(reg.users, userId)
    modifies reg
    ensures reg.Valid() && done
    ensures reg.State() == PasswordChanged(old(reg.State()), RowOf(old(reg.users), userId), newPassword)
  {
    var i := RowOf(reg.users, userId);
    PasswordChangeKeepsConsistent(reg.State(), i, newPassword);
    reg.users := PasswordChanged(reg.State(), i, newPassword).users;
    done := true;
  }

  /** `update_password`: sets the new password and returns the user. */
  method UpdatePassword(reg: UserRegistry, userId: Id, newPassword: string) returns (u: User)
    requires reg.Valid() && UserExists(reg.users, userId)
    modifies reg
    ensures reg.Valid()
    ensures reg.State() == PasswordChanged(old(reg.State()), RowOf(old(reg.users), userId), newPassword)
    ensures u == reg.users[RowOf(old(reg.users), userId)]
  {
    var i := RowOf(reg.users, userId);
    PasswordChangeKeepsConsistent(reg.State(), i, newPassword);
    reg.users := PasswordChanged(reg.State(), i, newPassword).users;
    u := reg.users[i];
  }
}

=== FILE: common.dfy ===
/** Shared vocabulary of the model: row identifiers, optional values, error results,
    and the small pieces of Python string semantics the services rely on. */
module Common {

  /** Primary keys of the relational tables (auto-incremented integers). */
  type Id = nat

  datatype Option<+T> = None | Some(value: T)

  /** A call that either returns a value or raises the error it names. */
  datatype Result<+T, +E> = Ok(value: T) | Err(error: E)

  /** The option's value, or `default` when it is absent (`dict.get`, `setdefault`). */
  function OrElse<T>(o: Option<T>, default: T): (r: T)
    ensures o.Some? ==> r == o.value
    ensures o.None? ==> r == default
  {
    if o.Some? then o.value else default
  }

  /** Python truthiness of an optional string: present and not empty. */
  predicate Truthy(s: Option<string>)
  {
    s.Some? && |s.value| > 0
  }

  /** `s.split('@')[0]`: everything before the first '@', or all of `s` when it has none. */
  function LocalPart(s: string): (r: string)
    ensures |r| <= |s| && r == s[..|r|]
    ensures '@' !in r
    ensures |r| == |s| || s[|r|] == '@'
  {
    if |s| == 0 || s[0] == '@' then ""
    else [s[0]] + LocalPart(s[1..])
  }

  /** A query's `filter(...)`: the rows satisfying `p`, in table order. */
  function Filter<T(!new)>(rows: seq<T>, p: T -> bool): (r: seq<T>)
    ensures |r| <= |rows|
    ensures forall x :: x in r <==> x in rows && p(x)
    ensures (forall x :: x in rows ==> !p(x)) ==> r == []
    ensures multiset(r) <= multiset(rows)
    ensures forall x :: p(x) ==> multiset(r)[x] == multiset(rows)[x]
  {
    if |rows| == 0 then []
    else
      assert rows == [rows[0]] + rows[1..];
      if p(rows[0]) then [rows[0]] + Filter(rows[1..], p)
      else Filter(rows[1..], p)
  }

  /** Exactly one position of `rows` satisfies `p`. */
  predicate HasOne<T>(rows: seq<T>, p: T -> bool)
  {
    exists i :: 0 <= i < |rows| && p(rows[i]) && forall j :: 0 <= j < |rows| && j != i ==> !p(rows[j])
  }

  /** Two different positions of `rows` satisfy `p`. */
  predicate HasTwo<T>(rows: seq<T>, p: T -> bool)
  {
    exists i, j :: 0 <= i < j < |rows| && p(rows[i]) && p(rows[j])
  }

  /** A filter yields two or more rows exactly when two different positions satisfy `p`. */
  lemma {:induction false} FilterHasTwo<T(!new)>(rows: seq<T>, p: T -> bool)
    ensures |Filter(rows, p)| >= 2 <==> HasTwo(rows, p)
  {
    if |rows| > 0 {
      FilterHasTwo(rows[1..], p);
      if p(rows[0]) {
        HasTwoKeptHead(rows, p);
      } else {
        HasTwoSkippedHead(rows, p);
      }
    }
  }

  /** The step of `FilterHasTwo` when the first row is kept. */
  lemma HasTwoKeptHead<T(!new)>(rows: seq<T>, p: T -> bool)
    requires |rows| > 0 && p(rows[0])
    requires |Filter(rows[1..], p)| >= 2 <==> HasTwo(rows[1..], p)
    ensures |Filter(rows, p)| >= 2 <==> HasTwo(rows, p)
  {
    var t := rows[1..];
    assert |Filter(rows, p)| == 1 + |Filter(t, p)|;
    if |Filter(t, p)| >= 1 {
      var y := Filter(t, p)[0];
      assert y in Filter(t, p);
      var k :| 0 <= k < |t| && t[k] == y;
      assert p(rows[0]) && p(rows[k + 1]);
    } else {
      assert !HasTwo(rows, p) by {
        forall i, j | 0 <= i < j < |rows| ensures !(p(rows[i]) && p(rows[j])) {
          assert rows[j] == t[j - 1];
          assert rows[j] !in Filter(t, p);
        }
      }
    }
  }

  /** The step of `FilterHasTwo` when the first row is dropped. */
  lemma HasTwoSkippedHead<T(!new)>(rows: seq<T>, p: T -> bool)
    requires |rows| > 0 && !p(rows[0])
    requires |Filter(rows[1..], p)| >= 2 <==> HasTwo(rows[1..], p)
    ensures |Filter(rows, p)| >= 2 <==> HasTwo(rows, p)
  {
    var t := rows[1..];
    assert |Filter(rows, p)| == |Filter(t, p)|;
    if HasTwo(rows, p) {
      var i, j :| 0 <= i < j < |rows| && p(rows[i]) && p(rows[j]);
      assert t[i - 1] == rows[i] && t[j - 1] == rows[j];
    }
    if HasTwo(t, p) {
      var i, j :| 0 <= i < j < |t| && p(t[i]) && p(t[j]);
      assert rows[i + 1] == t[i] && rows[j + 1] == t[j];
    }
  }

  /** A filter yields exactly one row when one position satisfies `p` and no other does. */
  lemma FilterHasOne<T(!new)>(rows: seq<T>, p: T -> bool)
    ensures |Filter(rows, p)| == 1 <==> HasOne(rows, p)
  {
    FilterHasTwo(rows, p);
    if |Filter(rows, p)| == 1 {
      var y := Filter(rows, p)[0];
      assert y in Filter(rows, p);
      var i :| 0 <= i < |rows| && rows[i] == y;
      assert forall j :: 0 <= j < |rows| && j != i ==> !p(rows[j]);
    }
    if exists i :: 0 <= i < |rows| && p(rows[i]) && forall j :: 0 <= j < |rows| && j != i ==> !p(rows[j]) {
      var i :| 0 <= i < |rows| && p(rows[i]) && forall j :: 0 <= j < |rows| && j != i ==> !p(rows[j]);
      assert rows[i] in Filter(rows, p);
    }
  }
}

=== FILE: config_exceptions.dfy ===
/** The project's API exceptions and the handler that rewrites error responses into the
    `{error_code, error_message, status_code}` envelope. The framework's own handler is a
    parameter: the response it produced, or null when it does not handle the exception. */
module ApiExceptions {
  import opened Common

  /** `CustomAPIException` and its five subclasses. */
  datatype ExceptionKind = Base | NotFound | Unauthorized | Forbidden | ServiceUnavailable | SubscriptionConflict

  /** The class attributes `status_code`, `default_code` and `default_detail`. */
  function DefaultStatus(k: ExceptionKind): (status: int)
    ensures 400 <= status < 600
    ensures status == 400 <==> k == Base || k == SubscriptionConflict
  {
    match k
    case Base => 400
    case NotFound => 404
    case Unauthorized => 401
    case Forbidden => 403
    case ServiceUnavailable => 503
    case SubscriptionConflict => 400
  }

  function DefaultCode(k: ExceptionKind): (code: string)
    ensures |code| > 0
    ensures code == "error" <==> k == Base
  {
    match k
    case Base => "error"
    case NotFound => "not_found"
    case Unauthorized => "unauthorized"
    case Forbidden => "forbidden"
    case ServiceUnavailable => "service_unavailable"
    case SubscriptionConflict => "subscription_conflict"
  }

  function DefaultDetail(k: ExceptionKind): (detail: string)
    ensures |detail| > 0
  {
    match k
    case Base => "예기치 않은 오류가 발생했습니다."
    case NotFound => "리소스를 찾을 수 없습니다."
    case Unauthorized => "인증이 필요합니다."
    case Forbidden => "이 작업을 수행할 권한이 없습니다."
    case ServiceUnavailable => "현재 서비스를 사용할 수 없습니다. 잠시 후 다시 시도해주세요."
    case SubscriptionConflict => "이미 구독된 항목입니다."
  }

  /** The class attributes, class by class: status and code. */
  lemma ClassAttributes()
    ensures DefaultStatus(Base) == 400 && DefaultCode(Base) == "error"
    ensures DefaultStatus(NotFound) == 404 && DefaultCode(NotFound) == "not_found"
    ensures DefaultStatus(Unauthorized) == 401 && DefaultCode(Unauthorized) == "unauthorized"
    ensures DefaultStatus(Forbidden) == 403 && DefaultCode(Forbidden) == "forbidden"
    ensures DefaultStatus(ServiceUnavailable) == 503 && DefaultCode(ServiceUnavailable) == "service_unavailable"
    ensures DefaultStatus(SubscriptionConflict) == 400 && DefaultCode(SubscriptionConflict) == "subscription_conflict"
  {
  }

  /** Each class has its own default code, so an envelope built from defaults names its class. */
  lemma DefaultCodesDistinct(k1: ExceptionKind, k2: ExceptionKind)
    requires DefaultCode(k1) == DefaultCode(k2)
    ensures k1 == k2
  {
  }

  /** What the handler sees of a raised exception: its `default_code` attribute if it has
      one, and its detail as a string. */
  datatype Raised = Raised(defaultCode: Option<string>, detail: string)

  /** An instance of one of the exception classes; the constructor's arguments override the
      class defaults only where given. */
  class CustomApiException {
    const kind: ExceptionKind
    var detail: string
    var statusCode: int
    var defaultCode: string

    constructor (kind: ExceptionKind, detail: Option<string>, statusCode: Option<int>, code: Option<string>)
      ensures this.kind == kind
      ensures this.detail == OrElse(detail, DefaultDetail(kind))
      ensures this.statusCode == OrElse(statusCode, DefaultStatus(kind))
      ensures this.defaultCode == OrElse(code, DefaultCode(kind))
    {
      this.kind := kind;
      this.detail := OrElse(detail, DefaultDetail(kind));
      this.statusCode := OrElse(statusCode, DefaultStatus(kind));
      this.defaultCode := OrElse(code, DefaultCode(kind));
    }

    /** The exception as the handler sees it. */
    function AsRaised(): (r: Raised)
      reads this
      ensures r.defaultCode == Some(defaultCode) && r.detail == detail
    {
      Raised(Some(defaultCode), detail)
    }
  }

  /** A response body: whatever the framework produced, or the project's error envelope. */
  datatype Payload = FrameworkBody(body: string) | ErrorEnvelope(errorCode: string, errorMessage: string, statusCode: int)

  /** An HTTP response the handler may rewrite in place. */
  class Response {
    var statusCode: int
    var data: Payload

    constructor (statusCode: int, data: Payload)
      ensures this.statusCode == statusCode && this.data == data
    {
      this.statusCode := statusCode;
      this.data := data;
    }
  }

  /** The envelope for `exc` on a response with status `status`; an exception without a
      `default_code` reports "error". */
  function Envelope(exc: Raised, status: int): (p: Payload)
    ensures p.ErrorEnvelope? && p.errorMessage == exc.detail && p.statusCode == status
    ensures p.errorCode == (if exc.defaultCode.Some? then exc.defaultCode.value else "error")
  {
    ErrorEnvelope(OrElse(exc.defaultCode, "error"), exc.detail, status)
  }

  /** `custom_exception_handler`: returns the framework's response; when there is one its
      body becomes the envelope and its status is kept. */
  method CustomExceptionHandler(exc: Raised, response: Response?) returns (r: Response?)
    modifies response
    ensures r == response
    ensures response != null ==>
      response.statusCode == old(response.statusCode) && response.data == Envelope(exc, response.statusCode)
  {
    if response != null {
      response.data := Envelope(exc, response.statusCode);
    }
    r := response;
  }

  /** An exception raised with no arguments, handled on a response with status `status`, is
      reported with its class's code and message; only the base class reports "error". */
  method DefaultExceptionReported(k: ExceptionKind, status: int) returns (p: Payload)
    ensures p == ErrorEnvelope(DefaultCode(k), DefaultDetail(k), status)
    ensures k != Base ==> p.errorCode != "error"
  {
    var e := new CustomApiException(k, None, None, None);
    p := Envelope(e.AsRaised(), status);
  }
}

=== FILE: config_permissions.dfy ===
/** The project-wide permission classes: admin-or-read-only and superuser-only. */
module ConfigPermissions {
  import opened Common
  import opened AccountModels

  /** The framework's read-only methods. */
  const SafeMethods: set<string> := {"GET", "HEAD", "OPTIONS"}

  /** A permission check's outcome; `Crash` is an uncaught AttributeError (a server error). */
  datatype Decision = Allow | Deny | Crash

  /** `IsAdminOrReadOnly.has_permission` as written: for an unsafe method it reads
      `is_admin` on `request.user`, which the anonymous user does not have. */
  function AdminOrReadOnlyAsWritten(verb: string, requester: Requester): (d: Decision)
    ensures verb in SafeMethods ==> d == Allow
    ensures verb !in SafeMethods ==> (d == Crash <==> requester.Anonymous?)
    ensures verb !in SafeMethods && requester.Authenticated? ==> (d == Allow <==> requester.user.isAdmin)
  {
    if verb in SafeMethods then Allow
    else if requester.Anonymous? then Crash
    else if requester.user.isAdmin then Allow
    else Deny
  }

  /** An anonymous write request makes the check as written raise instead of refusing. */
  lemma AnonymousWriteCrashes()
    ensures AdminOrReadOnlyAsWritten("POST", Anonymous) == Crash
    ensures AdminOrReadOnlyAsWritten("DELETE", Anonymous) == Crash
  {
    assert "POST" !in SafeMethods && "DELETE" !in SafeMethods;
  }

  /** `IsAdminOrReadOnly.has_permission` as intended: reads for everyone, writes only for
      authenticated admins; the anonymous user is refused. */
  function AdminOrReadOnly(verb: string, requester: Requester): (allowed: bool)
    ensures allowed <==> verb in SafeMethods || (requester.Authenticated? && requester.user.isAdmin)
  {
    verb in SafeMethods || (requester.Authenticated? && requester.user.isAdmin)
  }

  /** Wherever the check as written does not crash, the corrected check gives the same
      answer, and the only change is that anonymous writes are refused. */
  lemma CorrectedAgreesWhereDefined(verb: string, requester: Requester)
    ensures AdminOrReadOnlyAsWritten(verb, requester) != Crash ==>
      (AdminOrReadOnly(verb, requester) <==> AdminOrReadOnlyAsWritten(verb, requester) == Allow)
    ensures AdminOrReadOnlyAsWritten(verb, requester) == Crash ==>
      requester.Anonymous? && !AdminOrReadOnly(verb, requester)
  {
  }

  /** Write access depends on `is_admin` alone: `is_staff` and `is_superuser` do not grant it. */
  lemma OnlyAdminFlagGrantsWrites(verb: string, u: User, staff: bool, superuser: bool)
    ensures AdminOrReadOnly(verb, Authenticated(u.(isStaff := staff, isSuperuser := superuser)))
       == AdminOrReadOnly(verb, Authenticated(u))
    ensures AdminOrReadOnly(verb, Authenticated(u.(isAdmin := true)))
  {
  }

  /** `IsSuperUser.has_permission`: only an authenticated superuser; the anonymous user's
      `is_superuser` is false. */
  function IsSuperUser(requester: Requester): (allowed: bool)
    ensures allowed <==> requester.Authenticated? && requester.user.isSuperuser
  {
    requester.Authenticated? && requester.user.isSuperuser
  }

  /** A superuser created with the manager's defaults passes both checks for every method. */
  lemma DefaultSuperuserPasses(t: Tables, normalize: string -> string, email: string, username: string,
                               name: string, password: Option<string>, verb: string)
    requires Creation(t, normalize, email, username, name, password, SuperuserExtras(NoExtras)).Ok?
    ensures var u := Creation(t, normalize, email, username, name, password, SuperuserExtras(NoExtras)).value;
      AdminOrReadOnly(verb, Authenticated(u)) && IsSuperUser(Authenticated(u))
  {
    SuperuserDefaults(t, normalize, email, username, name, password);
  }
}

=== FILE: idols_models.dfy ===
/** The idol catalogue: agencies, groups and idols, the group colour's validation, the
    display labels, and deletion with its cascades along the foreign keys. */
module IdolModels {
  import opened Common

  datatype Agency = Agency(id: Id, name: string, contact: Option<string>, image: Option<string>)

  datatype Group = Group(id: Id, name: string, manager: Id, agency: Id, color: Option<string>,
                         sns: Option<string>, image: Option<string>)

  datatype Idol = Idol(id: Id, group: Id, name: string, image: Option<string>)

  /** The three tables. */
  datatype Catalogue = Catalogue(agencies: seq<Agency>, groups: seq<Group>, idols: seq<Idol>)

  const ColorMessage: string := "유효한 HEX 색상을 입력하세요."
  const ColorMaxLength: nat := 7
  const AgencyNameMaxLength: nat := 20
  const GroupNameMaxLength: nat := 100
  const IdolNameMaxLength: nat := 10

  predicate IsHexDigit(c: char)
  {
    ('0' <= c <= '9') || ('A' <= c <= 'F') || ('a' <= c <= 'f')
  }

  /** '#' followed by exactly six hexadecimal digits. */
  predicate IsHexColor(s: string)
  {
    |s| == 7 && s[0] == '#' && forall i :: 1 <= i < 7 ==> IsHexDigit(s[i])
  }

  /** What the colour's regular expression accepts when searched: its final `$` also
      matches just before a trailing newline. */
  predicate PatternMatches(s: string)
    ensures PatternMatches(s) ==> (|s| == 7 || |s| == 8) && s[0] == '#'
  {
    IsHexColor(s) || (|s| == 8 && IsHexColor(s[..7]) && s[7] == '\n')
  }

  /** The colour field's validation: a null or blank colour skips the validators; any other
      value must pass both the length limit of 7 and the pattern. */
  predicate ColorAccepted(color: Option<string>)
    ensures ColorAccepted(color) && color.Some? && color.value != "" ==> |color.value| == 7
  {
    color.None? || color.value == "" || (|color.value| <= ColorMaxLength && PatternMatches(color.value))
  }

  /** The accepted colours are exactly: none, blank, or '#' with six hex digits. */
  lemma ColorAcceptedExactly(color: Option<string>)
    ensures ColorAccepted(color) <==> color.None? || color.value == "" || IsHexColor(color.value)
  {
  }

  /** At the model field's validators, the pattern alone lets any valid colour followed by a
      newline through; the length limit is what refuses it. (Through the API the serializer's
      character field trims surrounding whitespace first, so the newline never gets here.) */
  lemma TrailingNewlineOnlyStoppedByLength(s: string)
    requires IsHexColor(s)
    ensures PatternMatches(s + "\n")
    ensures !ColorAccepted(Some(s + "\n"))
  {
    assert (s + "\n")[..7] == s;
  }

  /** `Agency.__str__`. */
  function AgencyLabel(a: Agency): (r: string)
    ensures r == a.name
  {
    a.name
  }

  /** `Group.__str__`: "name (agency name)". */
  function GroupLabel(g: Group, a: Agency): (r: string)
    requires g.agency == a.id
    ensures |r| == |g.name| + |a.name| + 3
    ensures r[..|g.name|] == g.name && r[|g.name|..|g.name| + 2] == " (" && r[|r| - 1] == ')'
    ensures r[|g.name| + 2..|r| - 1] == a.name
  {
    g.name + " (" + a.name + ")"
  }

  /** `Idol.__str__`: "name (group name)". */
  function IdolLabel(i: Idol, g: Group): (r: string)
    requires i.group == g.id
    ensures |r| == |i.name| + |g.name| + 3
    ensures r[..|i.name|] == i.name && r[|i.name|..|i.name| + 2] == " (" && r[|r| - 1] == ')'
    ensures r[|i.name| + 2..|r| - 1] == g.name
  {
    i.name + " (" + g.name + ")"
  }

  /** Within one agency, a group's label determines its name. */
  lemma GroupLabelDeterminesName(g1: Group, g2: Group, a: Agency)
    requires g1.agency == a.id && g2.agency == a.id
    requires GroupLabel(g1, a) == GroupLabel(g2, a)
    ensures g1.name == g2.name
  {
    var l := GroupLabel(g1, a);
    assert |g1.name| == |g2.name|;
    assert g1.name == l[..|g1.name|] == g2.name;
  }

  /** Within one group, an idol's label determines the idol's name. */
  lemma IdolLabelDeterminesName(i1: Idol, i2: Idol, g: Group)
    requires i1.group == g.id && i2.group == g.id
    requires IdolLabel(i1, g) == IdolLabel(i2, g)
    ensures i1.name == i2.name
  {
    var l := IdolLabel(i1, g);
    assert |i1.name| == |i2.name|;
    assert i1.name == l[..|i1.name|] == i2.name;
  }

  predicate AgencyExists(c: Catalogue, id: Id)
  {
    exists a :: a in c.agencies && a.id == id
  }

  predicate GroupExists(c: Catalogue, id: Id)
  {
    exists g :: g in c.groups && g.id == id
  }

  /** What the database keeps true: a primary key (and a group name) identifies one row,
      names fit their columns, and every foreign key refers to an existing row. */
  ghost predicate WellFormed(c: Catalogue)
  {
    && (forall a :: a in c.agencies ==> |a.name| <= AgencyNameMaxLength)
    && (forall g :: g in c.groups ==> |g.name| <= GroupNameMaxLength)
    && (forall i :: i in c.idols ==> |i.name| <= IdolNameMaxLength)
    && (forall a, b :: a in c.agencies && b in c.agencies && a.id == b.id ==> a == b)
    && (forall g, h :: g in c.groups && h in c.groups && (g.id == h.id || g.name == h.name) ==> g == h)
    && (forall i, j :: i in c.idols && j in c.idols && i.id == j.id ==> i == j)
    && (forall g :: g in c.groups ==> AgencyExists(c, g.agency))
    && (forall i :: i in c.idols ==> GroupExists(c, i.group))
  }

  /** Deleting an agency: its groups go with it (CASCADE), and their idols with them. */
  function DeleteAgency(c: Catalogue, id: Id): (r: Catalogue)
    ensures forall a :: a in r.agencies ==> a in c.agencies && a.id != id
    ensures forall g :: g in r.groups ==> g in c.groups && g.agency != id
    ensures forall i :: i in r.idols ==> i in c.idols
  {
    var groups := Filter(c.groups, (g: Group) => g.agency != id);
    var gone := set g | g in c.groups && g.agency == id :: g.id;
    Catalogue(Filter(c.agencies, (a: Agency) => a.id != id), groups,
              Filter(c.idols, (i: Idol) => i.group !in gone))
  }

  /** Deleting a group: its idols go with it (CASCADE). */
  function DeleteGroup(c: Catalogue, id: Id): (r: Catalogue)
    ensures r.agencies == c.agencies
    ensures forall g :: g in r.groups ==> g in c.groups && g.id != id
    ensures forall i :: i in r.idols ==> i in c.idols && i.group != id
  {
    Catalogue(c.agencies, Filter(c.groups, (g: Group) => g.id != id),
              Filter(c.idols, (i: Idol) => i.group != id))
  }

  /** The rows an agency deletion keeps are exactly those that do not depend on it. */
  lemma DeleteAgencyRemovesDependents(c: Catalogue, id: Id)
    ensures var r := DeleteAgency(c, id);
      && (forall a :: a in r.agencies <==> a in c.agencies && a.id != id)
      && (forall g :: g in r.groups <==> g in c.groups && g.agency != id)
      && (forall i :: i in r.idols <==>
            i in c.idols && !(exists g :: g in c.groups && g.agency == id && g.id == i.group))
  {
    var gone := set g | g in c.groups && g.agency == id :: g.id;
    forall i: Idol ensures i.group in gone <==> exists g :: g in c.groups && g.agency == id && g.id == i.group {
    }
  }

  /** Deleting an agency keeps the catalogue well formed, and nothing refers to it after. */
  lemma DeleteAgencyKeepsWellFormed(c: Catalogue, id: Id)
    requires WellFormed(c)
    ensures WellFormed(DeleteAgency(c, id))
    ensures forall g :: g in DeleteAgency(c, id).groups ==> g.agency != id
  {
    var r := DeleteAgency(c, id);
    DeleteAgencyRemovesDependents(c, id);
    forall g | g in r.groups ensures AgencyExists(r, g.agency) {
      var a :| a in c.agencies && a.id == g.agency;
      assert a in r.agencies;
    }
    forall i | i in r.idols ensures GroupExists(r, i.group) {
      var g :| g in c.groups && g.id == i.group;
      assert g in r.groups;
    }
  }

  /** The rows a group deletion keeps are exactly those that do not depend on it. */
  lemma DeleteGroupRemovesDependents(c: Catalogue, id: Id)
    ensures var r := DeleteGroup(c, id);
      && r.agencies == c.agencies
      && (forall g :: g in r.groups <==> g in c.groups && g.id != id)
      && (forall i :: i in r.idols <==> i in c.idols && i.group != id)
  {
  }

  /** Deleting a group keeps the catalogue well formed, and no idol refers to it after. */
  lemma DeleteGroupKeepsWellFormed(c: Catalogue, id: Id)
    requires WellFormed(c)
    ensures WellFormed(DeleteGroup(c, id))
    ensures forall i :: i in DeleteGroup(c, id).idols ==> i.group != id
  {
    var r := DeleteGroup(c, id);
    forall g | g in r.groups ensures AgencyExists(r, g.agency) {
      assert AgencyExists(c, g.agency);
    }
    forall i | i in r.idols ensures GroupExists(r, i.group) {
      var g :| g in c.groups && g.id == i.group;
      assert g in r.groups;
    }
  }
}

=== FILE: idols_serializers.dfy ===
/** The catalogue serializers: the duplicate-name checks on agency, group and idol names and
    the representations with the related row's name. */
module IdolSerializers {
  import opened Common
  import opened IdolModels

  const AgencyNameTakenMessage: string := "같은 이름의 소속사가 존재합니다."
  const GroupNameTakenMessage: string := "같은 이름의 그룹이 존재합니다."
  const IdolNameTakenMessage: string := "같은 이름의 아이돌이 존재합니다."

  /** `filter(name=value).exists()` raising `message`, or the value passed through. */
  function RejectTaken(taken: nat, value: string, message: string): (r: Result<string, string>)
    ensures r.Ok? <==> taken == 0
    ensures r.Ok? ==> r.value == value
    ensures r.Err? ==> r.error == message
  {
    if taken > 0 then Err(message) else Ok(value)
  }

  /** `AgencySerializer.validate_name`. */
  function ValidateAgencyName(agencies: seq<Agency>, value: string): (r: Result<string, string>)
    ensures r.Ok? <==> forall a :: a in agencies ==> a.name != value
    ensures r.Ok? ==> r.value == value
    ensures r.Err? ==> r.error == AgencyNameTakenMessage
  {
    var m := Filter(agencies, (a: Agency) => a.name == value);
    assert |m| > 0 ==> m[0] in m;
    RejectTaken(|m|, value, AgencyNameTakenMessage)
  }

  /** `GroupSerializer.validate_name`. */
  function ValidateGroupName(groups: seq<Group>, value: string): (r: Result<string, string>)
    ensures r.Ok? <==> forall g :: g in groups ==> g.name != value
    ensures r.Ok? ==> r.value == value
    ensures r.Err? ==> r.error == GroupNameTakenMessage
  {
    var m := Filter(groups, (g: Group) => g.name == value);
    assert |m| > 0 ==> m[0] in m;
    RejectTaken(|m|, value, GroupNameTakenMessage)
  }

  /** `IdolSerializer.validate_name`. */
  function ValidateIdolName(idols: seq<Idol>, value: string): (r: Result<string, string>)
    ensures r.Ok? <==> forall i :: i in idols ==> i.name != value
    ensures r.Ok? ==> r.value == value
    ensures r.Err? ==> r.error == IdolNameTakenMessage
  {
    var m := Filter(idols, (i: Idol) => i.name == value);
    assert |m| > 0 ==> m[0] in m;
    RejectTaken(|m|, value, IdolNameTakenMessage)
  }

  /** The checks do not leave out the row being edited: an update that re-submits a row's
      own name is refused like a duplicate. */
  lemma OwnNameRejectedOnUpdate(c: Catalogue, a: Agency, g: Group, i: Idol)
    requires a in c.agencies && g in c.groups && i in c.idols
    ensures ValidateAgencyName(c.agencies, a.name) == Err(AgencyNameTakenMessage)
    ensures ValidateGroupName(c.groups, g.name) == Err(GroupNameTakenMessage)
    ensures ValidateIdolName(c.idols, i.name) == Err(IdolNameTakenMessage)
  {
  }

  /** A group created after a successful name check keeps group names unique. */
  lemma AcceptedGroupNameKeepsNamesUnique(c: Catalogue, g: Group)
    requires WellFormed(c)
    requires ValidateGroupName(c.groups, g.name).Ok?
    requires forall h :: h in c.groups ==> h.id != g.id
    requires AgencyExists(c, g.agency) && |g.name| <= GroupNameMaxLength
    ensures WellFormed(c.(groups := c.groups + [g]))
  {
    var r := c.(groups := c.groups + [g]);
    assert forall h :: h in r.groups <==> h in c.groups || h == g;
    assert forall h :: h in c.groups ==> h.name != g.name;
    forall h1, h2 | h1 in r.groups && h2 in r.groups && (h1.id == h2.id || h1.name == h2.name)
      ensures h1 == h2
    {
    }
    forall h | h in r.groups ensures AgencyExists(r, h.agency) {
      assert AgencyExists(c, h.agency);
    }
    forall i | i in r.idols ensures GroupExists(r, i.group) {
      var h :| h in c.groups && h.id == i.group;
      assert h in r.groups;
    }
  }

  datatype AgencyView = AgencyView(id: Id, name: string, contact: Option<string>)
  datatype GroupView = GroupView(id: Id, name: string, agency: Id, agencyName: string,
                                 sns: Option<string>, color: Option<string>)
  datatype IdolView = IdolView(id: Id, name: string, group: Id, groupName: string)

  /** `AgencySerializer`'s fields. */
  function AgencyRepresentation(a: Agency): (r: AgencyView)
    ensures r.id == a.id && r.name == a.name && r.contact == a.contact
  {
    AgencyView(a.id, a.name, a.contact)
  }

  /** `GroupSerializer`'s fields, `agency_name` read through the agency foreign key. */
  function GroupRepresentation(g: Group, a: Agency): (r: GroupView)
    requires g.agency == a.id
    ensures r.id == g.id && r.name == g.name && r.agency == g.agency && r.sns == g.sns && r.color == g.color
    ensures r.agencyName == a.name
  {
    GroupView(g.id, g.name, g.agency, a.name, g.sns, g.color)
  }

  /** `IdolSerializer`'s fields, `group_name` read through the group foreign key. */
  function IdolRepresentation(i: Idol, g: Group): (r: IdolView)
    requires i.group == g.id
    ensures r.id == i.id && r.name == i.name && r.group == i.group && r.groupName == g.name
  {
    IdolView(i.id, i.name, i.group, g.name)
  }

  /** In a well-formed catalogue the represented agency name is the one of the group's only
      agency, whichever agency row with that id is passed. */
  lemma GroupRepresentationUnique(c: Catalogue, g: Group, a1: Agency, a2: Agency)
    requires WellFormed(c)
    requires a1 in c.agencies && a2 in c.agencies && g.agency == a1.id && g.agency == a2.id
    ensures GroupRepresentation(g, a1) == GroupRepresentation(g, a2)
  {
  }
}

=== FILE: preferences_services.dfy ===
/** The subscription table of the Preferences application (`UserGroupSubscribe`) and the
    service that maintains it: subscribe (update-or-create), unsubscribe (get-and-delete)
    and the per-user listing. */
module SubscriptionService {
  import opened Common

  /** One row of `UserGroupSubscribe`: a user's subscription to a group. */
  datatype Subscription = Subscription(id: Id, user: Id, group: Id, notification: bool)

  /** Message of the ValueError raised for an unknown group. */
  const UnknownGroupMessage: string := "존재하지 않는 그룹입니다."

  predicate IsPair(r: Subscription, user: Id, group: Id)
  {
    r.user == user && r.group == group
  }

  predicate HasPair(rows: seq<Subscription>, user: Id, group: Id)
  {
    exists i :: 0 <= i < |rows| && IsPair(rows[i], user, group)
  }

  /** The invariant the service keeps (the database itself has no such constraint):
      at most one row per (user, group) and distinct row ids. */
  ghost predicate UniquePairs(rows: seq<Subscription>)
  {
    forall i, j :: 0 <= i < j < |rows| ==>
      rows[i].id != rows[j].id && !(rows[i].user == rows[j].user && rows[i].group == rows[j].group)
  }

  /** The ORM lookup `get(user=..., group=...)`: the index of the first row for the pair. */
  function FindPair(rows: seq<Subscription>, user: Id, group: Id): (r: Option<nat>)
    ensures r.None? <==> !HasPair(rows, user, group)
    ensures r.Some? ==> r.value < |rows| && IsPair(rows[r.value], user, group)
    ensures r.Some? ==> forall j :: 0 <= j < r.value ==> !IsPair(rows[j], user, group)
  {
    if |rows| == 0 then None
    else if IsPair(rows[0], user, group) then Some(0)
    else
      match FindPair(rows[1..], user, group)
      case None => None
      case Some(k) => Some(k + 1)
  }

  /** `update_or_create(user, group, defaults={"notification": n})` on the table: the
      existing row gets the new flag, otherwise a row with id `freshId` is appended. */
  function Upserted(rows: seq<Subscription>, freshId: Id, user: Id, group: Id, notification: bool): (r: seq<Subscription>)
    ensures HasPair(r, user, group)
    ensures |r| == |rows| + (if HasPair(rows, user, group) then 0 else 1)
  {
    match FindPair(rows, user, group)
    case Some(i) =>
      var r := rows[i := rows[i].(notification := notification)];
      assert IsPair(r[i], user, group);
      r
    case None =>
      var r := rows + [Subscription(freshId, user, group, notification)];
      assert IsPair(r[|rows|], user, group);
      r
  }

  /** `get(user, group).delete()` on the table; a missing row leaves it as it is. */
  function Deleted(rows: seq<Subscription>, user: Id, group: Id): (r: seq<Subscription>)
    ensures |r| == |rows| - (if HasPair(rows, user, group) then 1 else 0)
    ensures forall x :: x in r ==> x in rows
  {
    match FindPair(rows, user, group)
    case Some(i) => rows[..i] + rows[i + 1..]
    case None => rows
  }

  /** Reference definition: the table with every row of the pair filtered out. */
  function Without(rows: seq<Subscription>, user: Id, group: Id): (r: seq<Subscription>)
    ensures forall x :: x in r <==> x in rows && !IsPair(x, user, group)
  {
    if |rows| == 0 then []
    else if IsPair(rows[0], user, group) then Without(rows[1..], user, group)
    else [rows[0]] + Without(rows[1..], user, group)
  }

  /** `filter(user=user)`: the user's rows, in table order. */
  function OfUser(rows: seq<Subscription>, user: Id): (r: seq<Subscription>)
    ensures |r| <= |rows|
    ensures forall x :: x in r <==> x in rows && x.user == user
  {
    if |rows| == 0 then []
    else if rows[0].user == user then [rows[0]] + OfUser(rows[1..], user)
    else OfUser(rows[1..], user)
  }

  /** `filter(user=user)` returns each of the user's rows exactly as often as the table holds
      it, and no other row. */
  lemma {:induction false} OfUserCounts(rows: seq<Subscription>, user: Id)
    ensures multiset(OfUser(rows, user)) <= multiset(rows)
    ensures forall x: Subscription :: x.user == user ==> multiset(OfUser(rows, user))[x] == multiset(rows)[x]
  {
    if |rows| > 0 {
      OfUserCounts(rows[1..], user);
      assert rows == [rows[0]] + rows[1..];
    }
  }

  /** After subscribing, exactly one row holds the pair and it carries the requested flag;
      the uniqueness invariant is kept and no row of another pair appears or disappears. */
  lemma {:induction false} UpsertedPlacesOneRow(rows: seq<Subscription>, freshId: Id, user: Id, group: Id, notification: bool)
    requires UniquePairs(rows)
    requires forall k :: 0 <= k < |rows| ==> rows[k].id < freshId
    ensures UniquePairs(Upserted(rows, freshId, user, group, notification))
    ensures exists i :: (0 <= i < |Upserted(rows, freshId, user, group, notification)|
      && IsPair(Upserted(rows, freshId, user, group, notification)[i], user, group)
      && Upserted(rows, freshId, user, group, notification)[i].notification == notification)
    ensures forall x :: !IsPair(x, user, group) ==>
      (x in rows <==> x in Upserted(rows, freshId, user, group, notification))
  {
    var after := Upserted(rows, freshId, user, group, notification);
    match FindPair(rows, user, group)
    case Some(i) =>
      assert IsPair(after[i], user, group) && after[i].notification == notification;
      forall x | !IsPair(x, user, group)
        ensures x in rows <==> x in after
      {
        if x in rows {
          var k :| 0 <= k < |rows| && rows[k] == x;
          assert after[k] == x;
        }
        if x in after {
          var k :| 0 <= k < |after| && after[k] == x;
          assert rows[k] == x;
        }
      }
    case None =>
      assert IsPair(after[|rows|], user, group);
  }

  /** Subscribing twice with the same arguments leaves the table as the first call left it. */
  lemma {:induction false} UpsertIdempotent(rows: seq<Subscription>, id1: Id, id2: Id, user: Id, group: Id, notification: bool)
    ensures Upserted(Upserted(rows, id1, user, group, notification), id2, user, group, notification)
         == Upserted(rows, id1, user, group, notification)
  {
    var once := Upserted(rows, id1, user, group, notification);
    match FindPair(rows, user, group)
    case Some(i) =>
      assert FindPair(once, user, group) == Some(i) by {
        var f := FindPair(once, user, group);
        assert IsPair(once[i], user, group);
        assert f.Some?;
        assert forall j :: 0 <= j < i ==> once[j] == rows[j];
      }
    case None =>
      assert FindPair(once, user, group) == Some(|rows|) by {
        var f := FindPair(once, user, group);
        assert IsPair(once[|rows|], user, group);
        assert forall j :: 0 <= j < |rows| ==> once[j] == rows[j];
      }
  }

  /** Re-subscribing to a pair that already has a row changes that row's flag and nothing else. */
  lemma ResubscribeChangesOnlyFlag(rows: seq<Subscription>, freshId: Id, user: Id, group: Id, notification: bool, i: nat)
    requires i < |rows| && IsPair(rows[i], user, group)
    requires UniquePairs(rows)
    ensures |Upserted(rows, freshId, user, group, notification)| == |rows|
    ensures Upserted(rows, freshId, user, group, notification)[i] == rows[i].(notification := notification)
    ensures forall j :: 0 <= j < |rows| && j != i ==> Upserted(rows, freshId, user, group, notification)[j] == rows[j]
  {
    var f := FindPair(rows, user, group);
    assert f.Some? && f.value <= i;
    if f.value < i {
      assert false;
    }
  }

  /** The invariant holds of the table without its first row. */
  lemma TailUniquePairs(rows: seq<Subscription>)
    requires UniquePairs(rows) && |rows| > 0
    ensures UniquePairs(rows[1..])
  {
    var tail := rows[1..];
    forall i, j | 0 <= i < j < |tail|
      ensures tail[i].id != tail[j].id && !(tail[i].user == tail[j].user && tail[i].group == tail[j].group)
    {
      assert tail[i] == rows[i + 1] && tail[j] == rows[j + 1];
    }
  }

  /** Under the invariant, a first row of the pair is its only row. */
  lemma HeadPairIsOnly(rows: seq<Subscription>, user: Id, group: Id)
    requires UniquePairs(rows) && |rows| > 0 && IsPair(rows[0], user, group)
    ensures !HasPair(rows[1..], user, group)
  {
    forall k | 0 <= k < |rows[1..]| ensures !IsPair(rows[1..][k], user, group) {
      assert rows[1..][k] == rows[k + 1];
    }
  }

  /** Under the uniqueness invariant, deleting the found row is filtering out the pair. */
  lemma {:induction false} DeletedIsWithout(rows: seq<Subscription>, user: Id, group: Id)
    requires UniquePairs(rows)
    ensures Deleted(rows, user, group) == Without(rows, user, group)
  {
    if |rows| == 0 {
    } else if IsPair(rows[0], user, group) {
      assert FindPair(rows, user, group) == Some(0);
      assert rows[1..] == rows[0 + 1..];
      HeadPairIsOnly(rows, user, group);
      WithoutAbsent(rows[1..], user, group);
    } else {
      TailUniquePairs(rows);
      DeletedIsWithout(rows[1..], user, group);
      DeletedSkipsHead(rows, user, group);
    }
  }

  /** Deleting a pair that is not in the first row leaves that row in front. */
  lemma DeletedSkipsHead(rows: seq<Subscription>, user: Id, group: Id)
    requires |rows| > 0 && !IsPair(rows[0], user, group)
    ensures Deleted(rows, user, group) == [rows[0]] + Deleted(rows[1..], user, group)
  {
    var tail := rows[1..];
    match FindPair(tail, user, group)
    case None =>
    case Some(k) =>
      assert FindPair(rows, user, group) == Some(k + 1);
      assert rows[..k + 1] + rows[k + 2..] == [rows[0]] + (tail[..k] + tail[k + 1..]);
  }

  /** Upserting a pair that is not in the first row leaves that row in front. */
  lemma UpsertedSkipsHead(rows: seq<Subscription>, freshId: Id, user: Id, group: Id, notification: bool)
    requires |rows| > 0 && !IsPair(rows[0], user, group)
    ensures Upserted(rows, freshId, user, group, notification)
         == [rows[0]] + Upserted(rows[1..], freshId, user, group, notification)
  {
    match FindPair(rows[1..], user, group)
    case None =>
    case Some(k) =>
      assert FindPair(rows, user, group) == Some(k + 1);
  }

  /** Filtering out a pair that has no row changes nothing. */
  lemma {:induction false} WithoutAbsent(rows: seq<Subscription>, user: Id, group: Id)
    requires !HasPair(rows, user, group)
    ensures Without(rows, user, group) == rows
  {
    if |rows| > 0 {
      assert !IsPair(rows[0], user, group);
      assert !HasPair(rows[1..], user, group) by {
        forall k | 0 <= k < |rows[1..]| ensures !IsPair(rows[1..][k], user, group) {
          assert rows[1..][k] == rows[k + 1];
        }
      }
      WithoutAbsent(rows[1..], user, group);
      assert [rows[0]] + rows[1..] == rows;
    }
  }

  /** Filtering a pair out of an upserted table removes exactly what the upsert added or changed. */
  lemma {:induction false} WithoutUpserted(rows: seq<Subscription>, freshId: Id, user: Id, group: Id, notification: bool)
    ensures Without(Upserted(rows, freshId, user, group, notification), user, group) == Without(rows, user, group)
  {
    var f := FindPair(rows, user, group);
    if |rows| == 0 {
      assert Upserted(rows, freshId, user, group, notification) == [Subscription(freshId, user, group, notification)];
    } else if IsPair(rows[0], user, group) {
      assert f == Some(0);
      var after := Upserted(rows, freshId, user, group, notification);
      assert after[1..] == rows[1..];
    } else {
      var after := Upserted(rows, freshId, user, group, notification);
      WithoutUpserted(rows[1..], freshId, user, group, notification);
      UpsertedSkipsHead(rows, freshId, user, group, notification);
      assert after[1..] == Upserted(rows[1..], freshId, user, group, notification);
    }
  }

  /** Subscribing and then unsubscribing the same pair leaves no row for the pair and every
      other row exactly as it was. */
  lemma SubscribeThenUnsubscribe(rows: seq<Subscription>, freshId: Id, user: Id, group: Id, notification: bool)
    requires UniquePairs(rows)
    requires forall k :: 0 <= k < |rows| ==> rows[k].id < freshId
    ensures Deleted(Upserted(rows, freshId, user, group, notification), user, group) == Without(rows, user, group)
    ensures !HasPair(Deleted(Upserted(rows, freshId, user, group, notification), user, group), user, group)
  {
    UpsertedPlacesOneRow(rows, freshId, user, group, notification);
    DeletedIsWithout(Upserted(rows, freshId, user, group, notification), user, group);
    WithoutUpserted(rows, freshId, user, group, notification);
    var r := Without(rows, user, group);
    forall k | 0 <= k < |r| ensures !IsPair(r[k], user, group) {
      assert r[k] in r;
    }
  }

  /** The subscription table, updated in place by the service's operations. */
  class SubscriptionTable {
    var rows: seq<Subscription>
    var nextId: Id

    ghost predicate Valid()
      reads this
    {
      UniquePairs(rows) && forall k :: 0 <= k < |rows| ==> rows[k].id < nextId
    }

    constructor ()
      ensures Valid() && rows == [] && nextId == 1
    {
      rows := [];
      nextId := 1;
    }

    /** `subscribe_to_group`: fails for a group id absent from `groups` (the Group table's ids),
        otherwise updates or creates the pair's row. `notification` defaults to true. */
    method Subscribe(user: Id, groupId: Id, groups: set<Id>, notification: bool := true)
      returns (r: Result<Subscription, string>)
      requires Valid()
      modifies this
      ensures Valid()
      ensures groupId !in groups ==>
        r == Err(UnknownGroupMessage) && rows == old(rows) && nextId == old(nextId)
      ensures groupId in groups ==>
        && rows == Upserted(old(rows), old(nextId), user, groupId, notification)
        && r.Ok? && r.value in rows && IsPair(r.value, user, groupId)
        && r.value.notification == notification
    {
      if groupId !in groups {
        return Err(UnknownGroupMessage);
      }
      UpsertedPlacesOneRow(rows, nextId, user, groupId, notification);
      var found := FindPair(rows, user, groupId);
      if found.Some? {
        var i := found.value;
        var updated := rows[i].(notification := notification);
        rows := rows[i := updated];
        r := Ok(updated);
      } else {
        var created := Subscription(nextId, user, groupId, notification);
        rows := rows + [created];
        nextId := nextId + 1;
        r := Ok(created);
      }
    }

    /** `unsubscribe_from_group`: true and the row removed when the pair has one,
        false and the table untouched otherwise. */
    method Unsubscribe(user: Id, groupId: Id) returns (removed: bool)
      requires Valid()
      modifies this
      ensures Valid()
      ensures removed == HasPair(old(rows), user, groupId)
      ensures rows == Deleted(old(rows), user, groupId) && nextId == old(nextId)
      ensures !removed ==> rows == old(rows)
      ensures !HasPair(rows, user, groupId)
    {
      DeletedIsWithout(rows, user, groupId);
      var found := FindPair(rows, user, groupId);
      if found.Some? {
        var i := found.value;
        rows := rows[..i] + rows[i + 1..];
        removed := true;
      } else {
        removed := false;
      }
      assert Valid() by {
        forall k | 0 <= k < |rows| ensures rows[k] in old(rows) {
          assert rows[k] in Without(old(rows), user, groupId);
        }
        forall i, j | 0 <= i < j < |rows|
          ensures rows[i].id != rows[j].id && !(rows[i].user == rows[j].user && rows[i].group == rows[j].group)
        {
          if removed {
            var f := FindPair(old(rows), user, groupId).value;
            var oi := if i < f then i else i + 1;
            var oj := if j < f then j else j + 1;
            assert rows[i] == old(rows)[oi] && rows[j] == old(rows)[oj];
          }
        }
      }
      forall k | 0 <= k < |rows| ensures !IsPair(rows[k], user, groupId) {
        assert rows[k] in Without(old(rows), user, groupId);
      }
    }

    /** `get_user_subscriptions`: exactly the rows whose user is `user`. */
    function UserSubscriptions(user: Id): (r: seq<Subscription>)
      reads this
      ensures forall x :: x in r <==> x in rows && x.user == user
      ensures multiset(r) <= multiset(rows)
      ensures forall x: Subscription :: x.user == user ==> multiset(r)[x] == multiset(rows)[x]
    {
      OfUserCounts(rows, user);
      OfUser(rows, user)
    }
  }
}

=== FILE: preferences_views.dfy ===
/** The Preferences views: the subscription view set (serializer choice, response
    envelope, create, destroy, list) and the subscribed-schedules feed. */
module PreferenceViews {
  import opened Common
  import opened SubscriptionService
  import opened ScheduleSerializer

  const HttpOk: int := 200
  const HttpCreated: int := 201
  const HttpNoContent: int := 204
  const HttpNotFound: int := 404

  /** An HTTP response: a status and, when there is one, the body `{"data": ...}`. */
  datatype Envelope<D> = Envelope(data: D)
  datatype Response<D> = Response(status: int, body: Option<Envelope<D>>)

  /** The serializers the view set chooses between. */
  datatype SerializerKind = SubscribeSerializer | SubscribeResponseSerializer

  /** `SubscribeResponseSerializer`'s fields for one subscription. */
  datatype SubscriptionView = SubscriptionView(id: Id, groupId: Id, groupName: string, notification: bool)

  /** The validated body of a subscribe request; `notification` may be omitted. */
  datatype SubscribeRequest = SubscribeRequest(groupId: Id, notification: Option<bool>)

  /** `get_serializer_class`: the response serializer for the list action only. */
  function SerializerFor(action: string): (r: SerializerKind)
    ensures r == SubscribeResponseSerializer <==> action == "list"
  {
    if action == "list" then SubscribeResponseSerializer else SubscribeSerializer
  }

  /** `custom_response`: no body for no data, otherwise `{"data": data}`; the status is kept. */
  function CustomResponse<D>(data: Option<D>, status: int): (r: Response<D>)
    ensures r.status == status
    ensures r.body.None? <==> data.None?
    ensures data.Some? ==> r.body == Some(Envelope(data.value))
  {
    if data.None? then Response(status, None) else Response(status, Some(Envelope(data.value)))
  }

  /** `destroy`'s status for the service's answer: 204 when a row was removed, else 404. */
  function DestroyStatus(removed: bool): (status: int)
    ensures removed <==> status == HttpNoContent
    ensures !removed <==> status == HttpNotFound
  {
    if removed then HttpNoContent else HttpNotFound
  }

  function ViewOf(s: Subscription, groupNames: map<Id, string>): SubscriptionView
    requires s.group in groupNames
  {
    SubscriptionView(s.id, s.group, groupNames[s.group], s.notification)
  }

  function ViewsOf(rows: seq<Subscription>, groupNames: map<Id, string>): (r: seq<SubscriptionView>)
    requires forall x :: x in rows ==> x.group in groupNames
    ensures |r| == |rows|
    ensures forall i :: 0 <= i < |r| ==> r[i] == ViewOf(rows[i], groupNames)
  {
    if |rows| == 0 then [] else [ViewOf(rows[0], groupNames)] + ViewsOf(rows[1..], groupNames)
  }

  /** The views of the user's rows: each is the view of a row of the user, every row of the
      user has its view, and each row of the user is listed exactly as often as the table
      holds it. */
  lemma UserViews(rows: seq<Subscription>, user: Id, groupNames: map<Id, string>)
    requires forall x :: x in rows ==> x.group in groupNames
    ensures forall x :: x in OfUser(rows, user) ==> x.group in groupNames
    ensures forall v :: v in ViewsOf(OfUser(rows, user), groupNames) ==>
      exists x :: x in rows && x.user == user && v == ViewOf(x, groupNames)
    ensures forall x :: x in rows && x.user == user ==> ViewOf(x, groupNames) in ViewsOf(OfUser(rows, user), groupNames)
    ensures forall x: Subscription :: x.user == user ==> multiset(OfUser(rows, user))[x] == multiset(rows)[x]
  {
    var mine := OfUser(rows, user);
    var views := ViewsOf(mine, groupNames);
    forall v | v in views ensures exists x :: x in rows && x.user == user && v == ViewOf(x, groupNames) {
      var i :| 0 <= i < |views| && views[i] == v;
      assert mine[i] in mine;
    }
    forall x | x in rows && x.user == user ensures ViewOf(x, groupNames) in views {
      var i :| 0 <= i < |mine| && mine[i] == x;
      assert views[i] == ViewOf(x, groupNames);
    }
    OfUserCounts(rows, user);
  }

  /** `list`: a 200 envelope holding one view per row of the requesting user, in table order.
      `groupNames` is the Group table (id to name); every row refers to an existing group. */
  function ListResponse(rows: seq<Subscription>, user: Id, groupNames: map<Id, string>)
    : (r: Response<seq<SubscriptionView>>)
    requires forall x :: x in rows ==> x.group in groupNames
    ensures r.status == HttpOk && r.body.Some?
    ensures r.body.value.data == ViewsOf(OfUser(rows, user), groupNames)
    ensures |r.body.value.data| == |OfUser(rows, user)|
    ensures forall v :: v in r.body.value.data ==>
      exists x :: x in rows && x.user == user && v == ViewOf(x, groupNames)
    ensures forall x :: x in rows && x.user == user ==> ViewOf(x, groupNames) in r.body.value.data
    ensures forall x: Subscription :: x.user == user ==> multiset(OfUser(rows, user))[x] == multiset(rows)[x]
  {
    UserViews(rows, user, groupNames);
    CustomResponse(Some(ViewsOf(OfUser(rows, user), groupNames)), HttpOk)
  }

  /** `create`: an unknown group fails the serializer's validation (the ValidationError the
      framework turns into a 400) before the service runs; otherwise the subscription is
      updated or created, `notification` defaulting to true, and the row is returned with
      status 201. `groupNames` is the Group table (id to name). */
  method Create(table: SubscriptionTable, user: Id, groupNames: map<Id, string>, request: SubscribeRequest)
    returns (r: Result<Response<SubscriptionView>, string>)
    requires table.Valid()
    modifies table
    ensures table.Valid()
    ensures request.groupId !in groupNames ==>
      r == Err(UnknownGroupMessage) && table.rows == old(table.rows) && table.nextId == old(table.nextId)
    ensures request.groupId in groupNames ==>
      var n := if request.notification.Some? then request.notification.value else true;
      && table.rows == Upserted(old(table.rows), old(table.nextId), user, request.groupId, n)
      && r.Ok? && r.value.status == HttpCreated && r.value.body.Some?
      && r.value.body.value.data.groupId == request.groupId
      && r.value.body.value.data.groupName == groupNames[request.groupId]
      && r.value.body.value.data.notification == n
      && exists x :: x in table.rows && IsPair(x, user, request.groupId) && x.notification == n
           && r.value.body.value.data == ViewOf(x, groupNames)
  {
    if request.groupId !in groupNames {
      return Err(UnknownGroupMessage);
    }
    var n := if request.notification.Some? then request.notification.value else true;
    var outcome := table.Subscribe(user, request.groupId, groupNames.Keys, n);
    var row := outcome.value;
    r := Ok(CustomResponse(Some(ViewOf(row, groupNames)), HttpCreated));
  }

  /** `destroy`: unsubscribes the requesting user from group `pk`; 204 without a body when a
      row was removed, 404 without a body when there was none. */
  method Destroy(table: SubscriptionTable, user: Id, pk: Id) returns (r: Response<SubscriptionView>)
    requires table.Valid()
    modifies table
    ensures table.Valid()
    ensures table.rows == Deleted(old(table.rows), user, pk)
    ensures r.body.None?
    ensures r.status == (if HasPair(old(table.rows), user, pk) then HttpNoContent else HttpNotFound)
  {
    var removed := table.Unsubscribe(user, pk);
    r := CustomResponse(None, DestroyStatus(removed));
  }

  /** The group ids the user subscribes to (`values_list('group_id')`), whatever the flag. */
  function SubscribedGroups(rows: seq<Subscription>, user: Id): (g: set<Id>)
    ensures forall x :: x in rows && x.user == user ==> x.group in g
    ensures forall gid :: gid in g ==> exists x :: x in rows && x.user == user && x.group == gid
  {
    set x | x in rows && x.user == user :: x.group
  }

  /** `filter(group_id__in=groups)` over the schedule table, in table order. */
  function InGroups(schedules: seq<Schedule>, groups: set<Id>): (r: seq<Schedule>)
    ensures forall s :: s in r <==> s in schedules && s.group in groups
    ensures multiset(r) <= multiset(schedules)
    ensures forall s: Schedule :: s.group in groups ==> multiset(r)[s] == multiset(schedules)[s]
  {
    if |schedules| == 0 then []
    else
      assert schedules == [schedules[0]] + schedules[1..];
      if schedules[0].group in groups then [schedules[0]] + InGroups(schedules[1..], groups)
      else InGroups(schedules[1..], groups)
  }

  predicate SortedByStart(s: seq<Schedule>)
  {
    forall i, j :: 0 <= i < j < |s| ==> s[i].startTime <= s[j].startTime
  }

  /** A schedule starting no later than the head of a sorted list can go in front. */
  lemma PrependSorted(a: Schedule, rest: seq<Schedule>)
    requires SortedByStart(rest)
    requires |rest| > 0 ==> a.startTime <= rest[0].startTime
    ensures SortedByStart([a] + rest)
  {
    var r := [a] + rest;
    forall i, j | 0 <= i < j < |r| ensures r[i].startTime <= r[j].startTime {
      assert r[j] == rest[j - 1];
      if i > 0 {
        assert r[i] == rest[i - 1];
      } else if j > 1 {
        assert rest[0].startTime <= rest[j - 1].startTime;
      }
    }
  }

  /** Places `x` before the first schedule that does not start earlier than it. */
  function InsertByStart(x: Schedule, s: seq<Schedule>): (r: seq<Schedule>)
    requires SortedByStart(s)
    ensures SortedByStart(r)
    ensures multiset(r) == multiset(s) + multiset{x}
    ensures |r| == |s| + 1 && r[0] == (if |s| == 0 || x.startTime <= s[0].startTime then x else s[0])
  {
    if |s| == 0 then [x]
    else if x.startTime <= s[0].startTime then
      PrependSorted(x, s);
      [x] + s
    else
      assert s == [s[0]] + s[1..];
      var rest := InsertByStart(x, s[1..]);
      assert |s| > 1 ==> s[0].startTime <= s[1].startTime;
      PrependSorted(s[0], rest);
      [s[0]] + rest
  }

  /** `order_by('start_time')`: ascending start time, ties in table order. */
  function SortByStart(s: seq<Schedule>): (r: seq<Schedule>)
    ensures SortedByStart(r)
    ensures multiset(r) == multiset(s)
  {
    if |s| == 0 then []
    else
      assert s == [s[0]] + s[1..];
      InsertByStart(s[0], SortByStart(s[1..]))
  }

  /** `UserSubscribedSchedulesView.get_queryset`. */
  function Feed(rows: seq<Subscription>, schedules: seq<Schedule>, user: Id): (r: seq<Schedule>)
    ensures SortedByStart(r)
    ensures multiset(r) <= multiset(schedules)
  {
    SortByStart(InGroups(schedules, SubscribedGroups(rows, user)))
  }

  /** The feed holds exactly the schedules of the user's subscribed groups, each as often as
      in the table, in ascending start time. */
  lemma FeedSpec(rows: seq<Subscription>, schedules: seq<Schedule>, user: Id)
    ensures SortedByStart(Feed(rows, schedules, user))
    ensures multiset(Feed(rows, schedules, user)) == multiset(InGroups(schedules, SubscribedGroups(rows, user)))
    ensures forall s :: s in Feed(rows, schedules, user) <==>
      s in schedules && exists x :: x in rows && x.user == user && x.group == s.group
    ensures forall s: Schedule :: s.group in SubscribedGroups(rows, user) ==>
      multiset(Feed(rows, schedules, user))[s] == multiset(schedules)[s]
  {
    var filtered := InGroups(schedules, SubscribedGroups(rows, user));
    forall s ensures s in Feed(rows, schedules, user) <==> s in filtered {
      assert s in Feed(rows, schedules, user) <==> s in multiset(Feed(rows, schedules, user));
      assert s in filtered <==> s in multiset(filtered);
    }
  }

  /** A subscription with notifications switched off still feeds its group's schedules. */
  lemma MutedSubscriptionStillFeeds(rows: seq<Subscription>, schedules: seq<Schedule>, user: Id, x: Subscription, s: Schedule)
    requires x in rows && x.user == user && !x.notification
    requires s in schedules && s.group == x.group
    ensures s in Feed(rows, schedules, user)
  {
    FeedSpec(rows, schedules, user);
  }
}

=== FILE: schedules_permissions.dfy ===
/** The schedule views' permission class: everyone may GET, only staff may do anything else. */
module SchedulePermissions {
  import opened AccountModels
  import ConfigPermissions

  /** `IsAdminOrReadOnly.has_permission` of the schedule views. Only GET counts as a read;
      the anonymous user's `is_staff` is false. */
  function AdminOrReadOnly(verb: string, requester: Requester): (allowed: bool)
    ensures allowed <==> verb == "GET" || (requester.Authenticated? && requester.user.isStaff)
  {
    verb == "GET" || (requester.Authenticated? && requester.user.isStaff)
  }

  /** HEAD and OPTIONS are not reads here: an anonymous or non-staff requester is refused. */
  lemma HeadAndOptionsNeedStaff(u: User)
    requires !u.isStaff
    ensures !AdminOrReadOnly("HEAD", Anonymous) && !AdminOrReadOnly("OPTIONS", Anonymous)
    ensures !AdminOrReadOnly("HEAD", Authenticated(u)) && !AdminOrReadOnly("OPTIONS", Authenticated(u))
  {
  }

  /** The two admin-or-read-only checks disagree: an admin who is not staff may write to the
      catalogue but not to schedules, and a staff member who is not admin the other way round. */
  lemma DiffersFromCatalogueCheck(u: User)
    ensures u.isAdmin && !u.isStaff ==>
      ConfigPermissions.AdminOrReadOnly("POST", Authenticated(u)) && !AdminOrReadOnly("POST", Authenticated(u))
    ensures !u.isAdmin && u.isStaff ==>
      !ConfigPermissions.AdminOrReadOnly("POST", Authenticated(u)) && AdminOrReadOnly("POST", Authenticated(u))
  {
    assert "POST" !in ConfigPermissions.SafeMethods;
  }

  /** Never raises, never lets an anonymous requester write. */
  lemma AnonymousOnlyReads(verb: string)
    ensures AdminOrReadOnly(verb, Anonymous) <==> verb == "GET"
  {
  }
}

=== FILE: schedules_serializer.dfy ===
/** The schedule serializer: validation of the time window, creation of a schedule row
    with its participating members, the member-name projection, and the minimal
    (schedule id, group id) representation. Datetimes are modelled as integers. */
module ScheduleSerializer {
  import opened Common

  /** Validated request data. `memberIds` is absent when the request omits
      `participating_member_ids`. */
  datatype ScheduleData = ScheduleData(
    group: Id, title: string, description: Option<string>, location: string,
    startTime: int, endTime: int, memberIds: Option<seq<Id>>)

  /** A row of the `schedule` table with its many-to-many member relation. `endTime` is
      nullable in the table. */
  datatype Schedule = Schedule(
    id: Id, user: Id, group: Id, title: string, description: Option<string>, location: string,
    startTime: int, endTime: Option<int>, members: seq<Id>)

  /** The `request` entry of the serializer context: absent, or a request that may lack a
      `user` attribute. */
  datatype RequestContext = RequestContext(user: Option<Id>)

  datatype MinimalSchedule = MinimalSchedule(scheduleId: Id, groupId: Id)

  const EndBeforeStartMessage: string := "end_time은 start_time 이후여야 합니다."
  const MissingUserMessage: string := "User context is missing."

  /** `validate`: the data passes unchanged exactly when it ends strictly after it starts. */
  function Validate(data: ScheduleData): (r: Result<ScheduleData, string>)
    ensures r.Ok? <==> data.startTime < data.endTime
    ensures r.Ok? ==> r.value == data
    ensures r.Err? ==> r.error == EndBeforeStartMessage
  {
    if data.endTime <= data.startTime then Err(EndBeforeStartMessage) else Ok(data)
  }

  predicate NoDuplicates(s: seq<Id>)
  {
    forall i, j :: 0 <= i < j < |s| ==> s[i] != s[j]
  }

  /** The member relation after `participating_members.set(ids)`: each id once, in order of
      first appearance. */
  function Distinct(ids: seq<Id>): (r: seq<Id>)
    ensures NoDuplicates(r)
    ensures forall x :: x in r <==> x in ids
    ensures |r| <= |ids|
  {
    if |ids| == 0 then []
    else
      var prefix := Distinct(ids[..|ids| - 1]);
      var last := ids[|ids| - 1];
      assert ids == ids[..|ids| - 1] + [last];
      if last in prefix then prefix else prefix + [last]
  }

  /** The row `create` inserts: the stored fields of the data, the requesting user, and the
      member relation set from the popped id list (empty when absent). */
  function NewSchedule(id: Id, data: ScheduleData, user: Id): (r: Schedule)
    ensures r.id == id && r.user == user && r.group == data.group
    ensures r.title == data.title && r.description == data.description && r.location == data.location
    ensures r.startTime == data.startTime && r.endTime == Some(data.endTime)
    ensures NoDuplicates(r.members)
    ensures forall m :: m in r.members <==> data.memberIds.Some? && m in data.memberIds.value
  {
    Schedule(id, user, data.group, data.title, data.description, data.location,
             data.startTime, Some(data.endTime),
             Distinct(if data.memberIds.Some? then data.memberIds.value else []))
  }

  /** `get_participating_members`: one name per member, in member order. `idols` is the
      Idol table by id; the relation only refers to existing idols. */
  function MemberNames(s: Schedule, idols: map<Id, string>): (r: seq<string>)
    requires forall m :: m in s.members ==> m in idols
    ensures |r| == |s.members|
    ensures forall i :: 0 <= i < |r| ==> r[i] == idols[s.members[i]]
  {
    NamesOf(s.members, idols)
  }

  function NamesOf(ids: seq<Id>, idols: map<Id, string>): (r: seq<string>)
    requires forall m :: m in ids ==> m in idols
    ensures |r| == |ids|
    ensures forall i :: 0 <= i < |r| ==> r[i] == idols[ids[i]]
  {
    if |ids| == 0 then [] else [idols[ids[0]]] + NamesOf(ids[1..], idols)
  }

  /** `MinimalScheduleSerializer`: exactly the schedule's id and its group's id. */
  function Minimal(s: Schedule): (r: MinimalSchedule)
    ensures r.scheduleId == s.id && r.groupId == s.group
  {
    MinimalSchedule(s.id, s.group)
  }

  /** The schedule table, which `create` inserts into. */
  class ScheduleStore {
    var schedules: seq<Schedule>
    var nextId: Id

    ghost predicate Valid()
      reads this
    {
      forall k :: 0 <= k < |schedules| ==> schedules[k].id < nextId
    }

    constructor ()
      ensures Valid() && schedules == [] && nextId == 1
    {
      schedules := [];
      nextId := 1;
    }

    /** `create`: refuses a context without a request or without a user and inserts nothing;
        otherwise appends the new schedule owned by the requesting user. */
    method Create(data: ScheduleData, request: Option<RequestContext>) returns (r: Result<Schedule, string>)
      requires Valid()
      modifies this
      ensures Valid()
      ensures (request.None? || request.value.user.None?) ==>
        r == Err(MissingUserMessage) && schedules == old(schedules) && nextId == old(nextId)
      ensures request.Some? && request.value.user.Some? ==>
        && r == Ok(NewSchedule(old(nextId), data, request.value.user.value))
        && schedules == old(schedules) + [r.value] && nextId == old(nextId) + 1
    {
      if request.None? || request.value.user.None? {
        return Err(MissingUserMessage);
      }
      var created := NewSchedule(nextId, data, request.value.user.value);
      schedules := schedules + [created];
      nextId := nextId + 1;
      r := Ok(created);
    }
  }

  /** The schedule list view's `post` as written: the serializer is built from the request
      data alone, without the request in its context, so `create` always refuses. */
  method PostAsWritten(store: ScheduleStore, data: ScheduleData) returns (r: Result<Schedule, string>)
    requires store.Valid()
    modifies store
    ensures store.Valid()
    ensures r == Err(MissingUserMessage)
    ensures store.schedules == old(store.schedules) && store.nextId == old(store.nextId)
  {
    r := store.Create(data, None);
  }

  /** The same view with the request passed in the serializer's context: the schedule is
      stored for the requesting user. */
  method Post(store: ScheduleStore, data: ScheduleData, user: Id) returns (r: Result<Schedule, string>)
    requires store.Valid()
    modifies store
    ensures store.Valid()
    ensures r == Ok(NewSchedule(old(store.nextId), data, user))
    ensures store.schedules == old(store.schedules) + [r.value]
  {
    r := store.Create(data, Some(RequestContext(Some(user))));
  }

  /** An id list without repeats is stored as given, in its own order. */
  lemma {:induction false} DistinctOfDistinct(ids: seq<Id>)
    requires NoDuplicates(ids)
    ensures Distinct(ids) == ids
  {
    if |ids| > 0 {
      var prefix := ids[..|ids| - 1];
      var last := ids[|ids| - 1];
      assert NoDuplicates(prefix);
      DistinctOfDistinct(prefix);
      assert last !in prefix by {
        forall k | 0 <= k < |prefix| ensures prefix[k] != last {
          assert ids[k] != ids[|ids| - 1];
        }
      }
      assert ids == prefix + [last];
    }
  }

  /** When the request lists each participating member once, `create` stores exactly that
      list as the member relation. */
  lemma NewScheduleKeepsMemberList(id: Id, data: ScheduleData, user: Id)
    requires data.memberIds.Some? && NoDuplicates(data.memberIds.value)
    ensures NewSchedule(id, data, user).members == data.memberIds.value
  {
    DistinctOfDistinct(data.memberIds.value);
  }
}
